=== FILE: README.md ===
# exRnaDataSlicer, modelled in Dafny

`exRnaDataSlicer.rb` is a Ruby script. It collects per-biosample coverage
files (bedgraphs) from the exRNA Atlas knowledge base, intersects each with a
region-of-interest BED file, and merges the intersections into one BED file.
Most of the script shells out to `curl`, `xz`, `sort` and a helper shell
script. Between those calls sits deterministic logic, and that is what this
project models and proves things about:

- `getFromJson`, the dotted-path lookup into parsed JSON documents (json.dfy);
- the three document tests `checkJsonStatus?`, `foundRightJson?` and
  `foundRightRelatedBiosample?` (documents.dfy);
- `readSampleFile`, which turns the tab-separated sample file into a
  biosample → analysis hash (samplefile.dfy);
- the file names the script derives and its reading of the helper's exit
  status (naming.dfy);
- the sample loop of lines 148-205 (resolution.dfy, resolution_facts.dfy,
  slicer.dfy). It fetches job and Result Files documents into a cache,
  matches jobs and biosamples, downloads and decompresses bedgraphs, and
  appends to `failed`;
- the intersection and merge steps of lines 221-242 (merging.dfy, slicer.dfy).

The Ruby string operations these need are written out in text.dfy: `split`
with a one-character separator, `to_i`, the fixed regular-expression tests,
`chomp` and a basename.

The file system, the knowledge base and the helper are abstract values:

- `Resolution.World` holds the document cache (path → parsed JSON), the set
  of files under `tmp/bedgraphs`, the `failed` list, and logs of the documents
  requested and the URLs downloaded;
- `Resolution.Env` holds the tmp directory and what `curl` would find
  remotely;
- the helper's exit status and the directory listings are parameters.

A Ruby exception that nothing rescues (a `fetch` on a missing key, `match` on
a non-string, `File.read` of a missing file) ends the run. It is modelled as
`Died(w)`, or `None` for the pure functions, and no later step runs.

The script is read as running on a Ruby release that still defines the
constants `TRUE` and `FALSE` (lines 45-80, 165, 175). They were deprecated in
Ruby 2.4 and later removed; on a release without them, `fileExists?` at
line 78, reached from line 145, would raise before anything is fetched.

The sample loop exists twice.

- As functions over `World`: `ScanFile`, `ScanFiles`, `ScanBiosample`,
  `ScanJob`, `ScanJobs`, `RunSample`, `RunSamples` and `LoadJobsIndex`. The
  lemmas of `ResolutionFacts` are stated about these.
- As the class `DataSlicer.Slicer`, whose fields are the world and whose
  methods run the nested loops step by step. Each method is proved to end
  in exactly the state the corresponding function computes.

In a few places the script behaves differently from what its messages and
comments suggest was intended. The model follows the script:

- **No early exit.** Every OK, non-PCR job with the sample's analysis is
  walked, and every matching bedgraph is downloaded; the loop does not stop
  at the first match.
- **What `jobFound` means.** `jobFound` is set as soon as a job's analysis
  matches (line 175), whether or not the biosample and file chain resolves,
  so a sample whose job was found but whose biosample or bedgraph entry is
  missing gets no entry in `failed` at all.
- **Two entries for a missing job.** Line 199 appends two entries to
  `failed`: the array itself, then the message. The model records these as
  `SelfRef` and `Msg`.
- **Exit status.** Only exit status 1 of the helper counts as a failure
  (lines 225 and 241). A status of 2, or a helper killed by a signal, is
  success.
- **Missing paths end the run.** A missing path in a document raises in
  `fetch`, and nothing rescues it, so the run ends there rather than moving
  on to the next item.

## Model

| member | source | states |
|---|---|---|
| JsonPath.ArrayIndex | exRnaDataSlicer.rb:39-40 | `Array#fetch(key.to_i)` succeeds exactly for `-len <= to_i < len`, and a negative index counts from the end |
| JsonPath.Step | exRnaDataSlicer.rb:39-40 | one `fetch` raises exactly on a scalar, an object without the key, or an array without the `to_i` index; otherwise it yields the member, the element, or the element counted from the end |
| JsonPath.NavigateAppend | exRnaDataSlicer.rb:37-42 | navigation composes: walking `p + q` is walking `q` from where `p` ended, and it fails if either part fails |
| JsonPath.NavigateFailsIff | exRnaDataSlicer.rb:37-42 | the lookup yields no value exactly when some step, reached from the steps before it, hits a scalar, a missing key or an out-of-range index |
| JsonPath.Navigate | exRnaDataSlicer.rb:38-41 | the `inject` of `fetch` steps over a key list; its contract is carried by `NavigateFailsIff`, `NavigateAppend` and `NavigateStored` |
| JsonPath.GetFromJson | exRnaDataSlicer.rb:37-42 | `getFromJson`: split the query on '.', then navigate; `GetFromJoined` states which key list a dotted query navigates |
| JsonPath.NavigateStored | exRnaDataSlicer.rb:37-42 | in any document where every object on the path holds the next key, navigation returns exactly the value stored under the last key, whatever else the objects hold |
| JsonPath.GetFromJoined | exRnaDataSlicer.rb:37-38 | `getFromJson` on keys joined by '.' (no key contains '.', the last is not empty) navigates exactly those keys, despite `split` dropping trailing empty fields |
| JsonPath.LetterKeyOnArray | exRnaDataSlicer.rb:39 | a key starting with a letter reads element 0 of an array, because its `to_i` is 0 |
| RubyText.Interp | exRnaDataSlicer.rb:158 | (and lines 187, 193, 199, 240) `"#{f}"` of a sample-file field, `nil` as ""; `Merging.Interps` and `Naming.BedgraphBasename` carry its contract |
| RubyText.Join | exRnaDataSlicer.rb:240 | `join` with a one-character separator; `SplitJoin` and `Merging.MergeNamesArgument` carry its contract |
| RubyText.Split | exRnaDataSlicer.rb:38 | `split` on one character, trailing empty fields dropped; `SplitJoin` and `DropTrailingEmpty` carry its contract |
| RubyText.SplitJoin | exRnaDataSlicer.rb:38 | `split` inverts `join` for fields without the separator whose last field is not empty |
| RubyText.DropTrailingEmpty | exRnaDataSlicer.rb:38 | `split` keeps a prefix of the raw fields, ends in a non-empty field, and drops only empty fields |
| RubyText.ToI | exRnaDataSlicer.rb:39 | `to_i` reads the leading digits ("12abc" is 12), negates them after '-' ("-1" is -1), keeps them after '+', and gives 0 for text starting with neither a space, a sign nor a digit |
| RubyText.ToISkipsSpace | exRnaDataSlicer.rb:39 | `to_i` skips leading white space (" 7" is 7) |
| RubyText.ToIMinusOne | exRnaDataSlicer.rb:39 | "-1" reads as -1, so the key "-1" on an array selects its last element |
| RubyText.Find | exRnaDataSlicer.rb:45 | an unanchored regular-expression test for a literal pattern succeeds exactly when the pattern occurs at some position, case-folded for `/i` |
| RubyText.Chomp | exRnaDataSlicer.rb:87 | `chomp` removes a trailing "\r\n", otherwise a trailing "\n" or "\r", and leaves a line that does not end in a line break unchanged |
| RubyText.Basename | exRnaDataSlicer.rb:187 | the text after the last '/'; `BasenameIsLastSegment` and `BasenameOfChild` carry its contract |
| RubyText.BasenameIsLastSegment | exRnaDataSlicer.rb:187 | the basename is a suffix of the path without '/', preceded by '/' unless it is the whole path |
| RubyText.BasenameOfChild | exRnaDataSlicer.rb:223 | the basename of `dir/name` is `name` when `name` has no '/' |
| Documents.StatusQuery | exRnaDataSlicer.rb:45 | `getFromJson(doc, 'status.msg')` navigates the keys `status`, `msg` |
| Documents.AnalysisQuery | exRnaDataSlicer.rb:56 | the Related Analysis query navigates its five keys |
| Documents.RelatedBiosampleQuery | exRnaDataSlicer.rb:61 | the Related Biosample query navigates its two keys |
| Documents.CheckJsonStatus | exRnaDataSlicer.rb:44-48 | `checkJsonStatus?`; `CheckJsonStatusMeaning` states when it raises and when it passes |
| Documents.CheckJsonStatusMeaning | exRnaDataSlicer.rb:44-48 | `checkJsonStatus?` raises unless `status.msg` is a string, and is true exactly when "ok" occurs in it in any letter case |
| Documents.StatusAcceptsAnyOk | exRnaDataSlicer.rb:44-48 | any document whose `status.msg` is a string passes exactly when some position of it holds `o`/`O` followed by `k`/`K` |
| Documents.ContainsOkIff | exRnaDataSlicer.rb:45 | the `/ok/i` test is the character-level condition above |
| Documents.BrokenStatusPasses | exRnaDataSlicer.rb:45 | the unanchored test lets the status "Broken" through |
| Documents.StatusOfStoredMsg | exRnaDataSlicer.rb:44-48 | any document whose `status.msg` is the string `msg` passes exactly when `msg` contains "ok" in any letter case |
| Documents.FoundRightJson | exRnaDataSlicer.rb:55-58 | `foundRightJson?`; `FoundRightMeaning` and `JobDocumentMatch` carry its contract |
| Documents.FoundRightRelatedBiosample | exRnaDataSlicer.rb:60-63 | `foundRightRelatedBiosample?`; `FoundRightMeaning` carries its contract |
| Documents.FoundRightMeaning | exRnaDataSlicer.rb:55-63 | both matching tests raise exactly when their path is missing, and pass exactly when the value there equals the sample-file field under Ruby's `==` (a `nil` field equals only JSON null) |
| Documents.JobDocumentMatch | exRnaDataSlicer.rb:55-58 | any job document holding a value at `data.Job.properties.Related Analysis.value` matches an analysis exactly when that value is the analysis |
| Documents.Members | exRnaDataSlicer.rb:166 | `.each` yields exactly an array's elements, and nothing for an empty object; on a scalar it raises, and on a non-empty object it yields `[key, value]` pairs on which the next path lookup raises, so both end the run |
| Documents.NatToString | exRnaDataSlicer.rb:179 | interpolating a number renders its decimal digits, whose value is the number, with no leading zero unless the number is 0 |
| Documents.Render | exRnaDataSlicer.rb:179 | `"#{v}"` of the Related Result Files value: a string as itself, nil as "", a number through `NatToString`, arrays and objects through `inspect`; the cache path it names is stated by `CachePathDistinct` |
| SampleFile.IsHeader | exRnaDataSlicer.rb:86 | `line.match(/biosample\|analysis/i)`; `HeaderIgnored` carries its contract |
| SampleFile.Absorb | exRnaDataSlicer.rb:86-88 | one line of the loop: header lines skipped, otherwise `output[tmp[1]] = tmp[0]`; `Put` and `HeaderIgnored` carry its contract |
| SampleFile.Tabulate | exRnaDataSlicer.rb:83-91 | the hash `readSampleFile` returns; `TabulateDistinct`, `TabulateFinds` and `TabulateMisses` carry its contract |
| SampleFile.ReadSampleFile | exRnaDataSlicer.rb:83-91 | the line loop builds exactly the hash `Tabulate` describes |
| SampleFile.Put | exRnaDataSlicer.rb:88 | `output[k] = v` maps `k` to `v` and leaves every other key as it was; a new key is appended; an existing key keeps its place; keys stay distinct |
| SampleFile.TabulateDistinct | exRnaDataSlicer.rb:83-91 | the hash has one entry per biosample |
| SampleFile.TabulateFinds | exRnaDataSlicer.rb:86-88 | a data line's biosample maps to its analysis when no later data line has the same biosample (the last one wins) |
| SampleFile.TabulateMisses | exRnaDataSlicer.rb:86-88 | a biosample on no data line is not in the hash |
| SampleFile.HeaderIgnored | exRnaDataSlicer.rb:86 | a line containing "biosample" or "analysis" in any case has no effect wherever it appears |
| SampleFile.AbsorbAllAppend | exRnaDataSlicer.rb:85-89 | reading `a + b` is reading `a`, then `b` |
| Naming.BedgraphFile | exRnaDataSlicer.rb:158 | the bedgraph path of a biosample; `BedgraphBasename` carries its contract |
| Naming.XzFile | exRnaDataSlicer.rb:187 | the download target of a URL; `ResolutionFacts.TargetArchive` carries its contract |
| Naming.IntersectionFile | exRnaDataSlicer.rb:224 | the helper's output path for a bedgraph; `IntersectionFileBasename` carries its contract |
| Naming.FirstField | exRnaDataSlicer.rb:234 | `split(sep)[0]`, `nil` when every field is empty; `PrefixBefore` and `FirstFieldBeforeMarker` carry its contract |
| Naming.SampleName | exRnaDataSlicer.rb:234 | the sample name taken from an intersection file; `SampleNameRecovered` carries its contract |
| Naming.IsFailureStatus | exRnaDataSlicer.rb:225 | `$?.exitstatus == 1`; `OnlyStatusOneFails` carries its contract |
| Naming.SampleNameRecovered | exRnaDataSlicer.rb:234 | with the names of lines 158 and 224: for a biosample without '/' and without `_endogenousAlignments`, the name recovered from its intersection file is the biosample |
| Naming.FirstFieldBeforeMarker | exRnaDataSlicer.rb:234 | `split("_endogenousAlignments")[0]` of `b + "_endogenousAlignments" + "_genome_Aligned.bedgraph_intersect.bed"` (the tail every intersection file has) is `b` when `b` has no marker |
| Naming.IntersectionBasename | exRnaDataSlicer.rb:223-224 | with the bedgraph name of line 158, the intersection file of a biosample's bedgraph is named `<biosample>_endogenousAlignments_genome_Aligned.bedgraph_intersect.bed` |
| Naming.BedgraphBasename | exRnaDataSlicer.rb:158 | the bedgraph of a biosample without '/' is named `<biosample>_endogenousAlignments_genome_Aligned.bedgraph` |
| Naming.IntersectionFileBasename | exRnaDataSlicer.rb:223-224 | the intersection output is named after the bedgraph's basename plus `_intersect.bed` |
| Naming.TargetNameSuffix | exRnaDataSlicer.rb:185 | the target archive name preceded by '_' is the bedgraph suffix of line 158 plus ".xz" |
| Naming.NoMarkerInside | exRnaDataSlicer.rb:234 | no marker occurrence starts inside a marker-free name followed by the marker |
| Naming.PrefixBefore | exRnaDataSlicer.rb:234 | the first field is the prefix of the string before the first separator: no separator starts inside it, and one starts right after it unless it is the whole string |
| Naming.PrefixBeforeAppend | exRnaDataSlicer.rb:234 | the first field of `x + y` is `x` plus the first field of `y` when no separator starts inside `x` |
| Naming.OnlyStatusOneFails | exRnaDataSlicer.rb:225 | (and line 241) exit status 1 is a failure; 0, 2 and a killed helper (`nil`) are not |
| Resolution.JobsIndexPath | exRnaDataSlicer.rb:148 | the cache file of the jobs index; `LoadJobsIndexCached` carries its contract |
| Resolution.StringAt | exRnaDataSlicer.rb:167 | (and line 186) a string read at a path, `None` where the script raises; the `*Query` lemmas and `ScanJobBehaves` carry its contract |
| Resolution.Collection | exRnaDataSlicer.rb:176 | (and lines 166, 184) a collection read at a path and iterated with `.each`; `Members` and the `*Query` lemmas carry its contract |
| Resolution.JobItems | exRnaDataSlicer.rb:166 | the entries of the jobs index; `JobsQuery` and `Members` carry its contract |
| Resolution.DownloadFailure | exRnaDataSlicer.rb:193 | (and line 199) the message "Failed to download bedgraph for <biosample>"; `DownloadFailsIffMissing` and `UnmatchedSampleRecorded` carry its contract |
| Resolution.CachePath | exRnaDataSlicer.rb:168 | (and line 179) the cache file of a document, named by the document name alone; `ResolutionFacts.CachePathDistinct` carries its contract |
| ResolutionFacts.CachePathDistinct | exRnaDataSlicer.rb:168 | (and line 179) two documents share a cache file exactly when they have the same name, whatever their collections |
| Resolution.Fetched | exRnaDataSlicer.rb:170 | (and lines 27-30, 181) a request guarded by `File.exist?`; `FetchedBehaves` carries its contract |
| Resolution.ReadDoc | exRnaDataSlicer.rb:50-53 | `readFileToJson`, raising on a missing file; `ScanJobDocFound` states its effect on the job loop |
| Resolution.Download | exRnaDataSlicer.rb:186-194 | download, `decompressBedgraphXZ` and the failure message; `DownloadFailsIffMissing`, `DownloadYieldsBedgraph` and `DownloadKeepsDocuments` carry its contract |
| ResolutionFacts.DownloadKeepsDocuments | exRnaDataSlicer.rb:186-194 | a download touches neither the document cache nor the request log |
| Resolution.Decompressed | exRnaDataSlicer.rb:65-75 | the effect of `xz -d`; `DownloadYieldsBedgraph` and `Slicer.DecompressBedgraphXZ` carry its contract |
| Resolution.ScanFile | exRnaDataSlicer.rb:185-194 | one Pipeline Result File; `ScanFileBehaves`, `ScanFilesDownloads` and `ScanFilesFailures` carry its contract |
| Resolution.ScanFiles | exRnaDataSlicer.rb:184-195 | the file loop; `ScanFilesDownloads`, `ScanFilesBehaves`, `ScanFilesFailures` and `ScanFilesStopped` carry its contract |
| Resolution.ScanResultFilesDoc | exRnaDataSlicer.rb:182-195 | reading and scanning a Result Files document; `ScanResultFilesDocBehaves` carries its contract |
| Resolution.ScanResultFiles | exRnaDataSlicer.rb:179-195 | requesting, reading and scanning a Result Files document; `ScanResultFilesBehaves` carries its contract |
| Resolution.ScanBiosample | exRnaDataSlicer.rb:177-195 | one Related Biosamples entry; `ScanBiosampleBehaves` carries its contract |
| Resolution.ScanBiosamples | exRnaDataSlicer.rb:176-196 | the biosample loop; `ScanBiosamplesBehaves`, `ScanBiosamplesFailures` and `ScanBiosamplesStopped` carry its contract |
| Resolution.ScanJobDoc | exRnaDataSlicer.rb:171-196 | one job document once requested; `ScanJobDocFound` and `ScanJobDocBehaves` carry its contract |
| Resolution.ScanJob | exRnaDataSlicer.rb:167-196 | one entry of the jobs index; `ScanJobFound` and `ScanJobBehaves` carry its contract |
| Resolution.ScanJobs | exRnaDataSlicer.rb:165-197 | the job loop with `jobFound`; `JobFoundIff`, `JobFoundCached`, `ScanJobsBehaves` and `ScanJobsFailures` carry its contract |
| Resolution.RunSample | exRnaDataSlicer.rb:157-204 | one sample; `PresentSampleSkipped`, `UnmatchedSampleRecorded`, `RunSampleBehaves` and `RunSampleFailures` carry its contract |
| Resolution.RunSamples | exRnaDataSlicer.rb:157-205 | the sample loop; `PresentSamplesSkipped`, `RunSamplesBehaves` and `RunSamplesStopped` carry its contract |
| Resolution.LoadJobsIndex | exRnaDataSlicer.rb:148-152 | loading the jobs index; `LoadJobsIndexCached` carries its contract |
| ResolutionFacts.JobsQuery | exRnaDataSlicer.rb:166 | the query `data` on the jobs index navigates its key |
| ResolutionFacts.JobNameQuery | exRnaDataSlicer.rb:167 | the query `Job.value` navigates its two keys |
| ResolutionFacts.BiosamplesQuery | exRnaDataSlicer.rb:176 | the Related Biosamples query navigates its five keys |
| ResolutionFacts.ResultFilesQuery | exRnaDataSlicer.rb:178 | the Related Result Files query navigates its four keys |
| ResolutionFacts.PipelineFilesQuery | exRnaDataSlicer.rb:184 | the Pipeline Result Files query navigates its seven keys |
| ResolutionFacts.FileNameQuery | exRnaDataSlicer.rb:185 | the File Name query navigates its four keys |
| ResolutionFacts.UrlQuery | exRnaDataSlicer.rb:186 | the Genboree URL query navigates its four keys |
| ResolutionFacts.PresentSampleSkipped | exRnaDataSlicer.rb:157-163 | a sample whose bedgraph exists leaves the world unchanged: no request, no download, no failure |
| ResolutionFacts.PresentSamplesSkipped | exRnaDataSlicer.rb:157-163 | when every sample's bedgraph exists, the whole loop changes nothing |
| ResolutionFacts.ScanFilesStopped | exRnaDataSlicer.rb:184-195 | once the file loop has raised, later items change nothing |
| ResolutionFacts.ScanBiosamplesStopped | exRnaDataSlicer.rb:176-196 | once the biosample loop has raised, later items change nothing |
| ResolutionFacts.ScanJobsStopped | exRnaDataSlicer.rb:166-197 | once the job loop has raised, later jobs change nothing |
| ResolutionFacts.RunSamplesStopped | exRnaDataSlicer.rb:157-205 | once a sample has raised, later samples change nothing |
| ResolutionFacts.FetchedBehaves | exRnaDataSlicer.rb:170 | (and line 181) a request is made only for a path with no cache file, and the cache keeps every document it had |
| ResolutionFacts.Chain | exRnaDataSlicer.rb:166-197 | the fetch discipline composes over consecutive steps |
| ResolutionFacts.ScanFileBehaves | exRnaDataSlicer.rb:185-194 | a Pipeline Result File keeps the fetch discipline and leaves the cache and the request log as they were |
| ResolutionFacts.ScanFilesBehaves | exRnaDataSlicer.rb:184-195 | the file loop keeps the fetch discipline |
| ResolutionFacts.ScanResultFilesDocBehaves | exRnaDataSlicer.rb:182-195 | scanning a Result Files document keeps the fetch discipline |
| ResolutionFacts.ScanResultFilesBehaves | exRnaDataSlicer.rb:179-195 | a Result Files document is requested only when its cache file is absent, and, if the scan goes on, only once |
| ResolutionFacts.ScanBiosampleBehaves | exRnaDataSlicer.rb:177-195 | one Related Biosamples entry keeps the fetch discipline |
| ResolutionFacts.ScanBiosamplesBehaves | exRnaDataSlicer.rb:176-196 | the biosample loop never requests a path that had a cache file and keeps every cached document; if it goes on, every request created its cache file and no path was requested twice |
| ResolutionFacts.ScanJobDocBehaves | exRnaDataSlicer.rb:171-196 | scanning a job document keeps the fetch discipline |
| ResolutionFacts.ScanJobBehaves | exRnaDataSlicer.rb:167-196 | a job document is requested only when its cache file is absent; a PCR job changes nothing and does not set `jobFound` |
| ResolutionFacts.ScanJobsBehaves | exRnaDataSlicer.rb:166-197 | over the whole jobs index, no cached document is requested again, and if the loop goes on no path is requested twice |
| ResolutionFacts.RunSampleBehaves | exRnaDataSlicer.rb:157-205 | for one sample, no cached document is requested again, and if the sample does not raise no path is requested twice |
| ResolutionFacts.RunSamplesBehaves | exRnaDataSlicer.rb:157-205 | the same for the whole sample loop: cache files that exist are never fetched again |
| ResolutionFacts.LoadJobsIndexCached | exRnaDataSlicer.rb:148-152 | an existing jobs index file is not fetched again, and loading keeps the cache |
| ResolutionFacts.WithoutPcr | exRnaDataSlicer.rb:169 | the filtered index holds only jobs of the index, none whose name contains "PCR", and every job of the index whose name does not |
| ResolutionFacts.PcrJobsIgnored | exRnaDataSlicer.rb:169 | removing the PCR jobs from the index changes nothing: they are never fetched or matched |
| ResolutionFacts.ScanJobDocFound | exRnaDataSlicer.rb:171-175 | a job document sets `jobFound` exactly when it can be read, its status is OK and its analysis matches |
| ResolutionFacts.ScanJobFound | exRnaDataSlicer.rb:167-175 | one job sets `jobFound` exactly when it passes the tests of `Accepts` |
| ResolutionFacts.JobFoundIff | exRnaDataSlicer.rb:165-197 | after a scan that does not raise, `jobFound` is true exactly when some job passes the tests in the world the scan reached at that job |
| ResolutionFacts.JobFoundCached | exRnaDataSlicer.rb:165-197 | with every job document cached, `jobFound` is true exactly when some non-PCR job has an OK status and the sample's analysis |
| ResolutionFacts.AcceptsCached | exRnaDataSlicer.rb:168-175 | whether a cached job passes does not depend on what the scan did since |
| ResolutionFacts.ScanJobsUnmatched | exRnaDataSlicer.rb:166-197 | a scan that finds no job touches no file and records no failure |
| ResolutionFacts.UnmatchedSampleRecorded | exRnaDataSlicer.rb:198-199 | when no job matches, `failed` grows by exactly two entries, the array itself and then "Failed to download bedgraph for <biosample>", and the bedgraph files and the download log are unchanged (the job documents requested on the way stay in the cache) |
| ResolutionFacts.ScanFilesDownloads | exRnaDataSlicer.rb:184-189 | if the file loop does not raise, it downloads exactly the URLs of the items named `endogenousAlignments_genome_Aligned.bedgraph.xz`, in order |
| ResolutionFacts.DownloadFailsIffMissing | exRnaDataSlicer.rb:189-194 | with `decompressBedgraphXZ` (lines 65-75), a download appends the failure message exactly when the `.xz` file is absent afterwards |
| ResolutionFacts.TargetArchive | exRnaDataSlicer.rb:187 | the target archive is downloaded to the bedgraph path of line 158 plus ".xz" |
| ResolutionFacts.DownloadYieldsBedgraph | exRnaDataSlicer.rb:186-191 | a successful download of the target archive leaves the sample's bedgraph (line 158) in place, so a later run skips the sample |
| ResolutionFacts.RunSampleFailures | exRnaDataSlicer.rb:157-205 | one sample only appends to `failed`, and only its own download message or the self-reference |
| ResolutionFacts.ScanJobsFailures | exRnaDataSlicer.rb:166-197 | the same for the jobs loop |
| ResolutionFacts.ScanBiosamplesFailures | exRnaDataSlicer.rb:176-196 | the same for the biosample loop |
| ResolutionFacts.ScanFilesFailures | exRnaDataSlicer.rb:184-195 | the same for the file loop |
| ResolutionFacts.FailuresOfTrans | exRnaDataSlicer.rb:193-199 | the failure discipline composes over consecutive steps |
| Merging.IntersectRuns | exRnaDataSlicer.rb:221-227 | the helper runs once per listed bedgraph, run i with the sorted ROI file, bedgraph i and `<tmp>/ind_intersection/<basename>_intersect.bed` as on line 224 |
| Merging.Failing | exRnaDataSlicer.rb:225-226 | every reported bedgraph is listed and exited with status 1 |
| Merging.FailingComplete | exRnaDataSlicer.rb:225-226 | every listed bedgraph whose helper exited with status 1 is reported |
| Merging.IntersectFailure | exRnaDataSlicer.rb:226 | the message of a failed intersection; `IntersectFailuresOfFailing` carries its contract |
| Merging.IntersectFailures | exRnaDataSlicer.rb:225-226 | the entries line 226 appends; `IntersectFailuresOfFailing` and `OnlyStatusOneReported` carry its contract |
| Merging.IntersectFailuresOfFailing | exRnaDataSlicer.rb:226 | the intersection failures are one message per failing bedgraph, in listing order |
| Merging.OnlyStatusOneReported | exRnaDataSlicer.rb:225-226 | no bedgraph with a status other than 1 produces a failure |
| Merging.SampleNames | exRnaDataSlicer.rb:232-235 | one name per intersection file, name i being `File.basename(file).split("_endogenousAlignments")[0]` of file i |
| Merging.Interps | exRnaDataSlicer.rb:240 | each name is interpolated, `nil` as "" |
| Merging.MergeNamesRecovered | exRnaDataSlicer.rb:232-235 | for intersection files made from marker-free biosamples, the collected names are those biosamples |
| Merging.MergeRun | exRnaDataSlicer.rb:240 | the merge command's name and path lists; `MergeNamesArgument` and `Slicer.MergeIntersections` carry its contract |
| Merging.MergeNamesArgument | exRnaDataSlicer.rb:240 | the space-joined name list handed to the merge helper, cut at each space, gives back the biosamples |
| DataSlicer.Slicer.constructor | exRnaDataSlicer.rb:154 | the slicer starts in the given world with no helper runs |
| DataSlicer.Slicer.Fetch | exRnaDataSlicer.rb:170 | `curlAtlasApi` (lines 27-30) guarded as on lines 170 and 181: a request is made and logged only when the cache file is absent |
| DataSlicer.Slicer.DecompressBedgraphXZ | exRnaDataSlicer.rb:65-75 | the result is whether the archive exists, and only then is it replaced by its stem |
| DataSlicer.Slicer.DownloadBedgraph | exRnaDataSlicer.rb:186-194 | downloads, decompresses or records the failure, as `Download` |
| DataSlicer.Slicer.VisitFile | exRnaDataSlicer.rb:185-194 | one file turn ends in the state `ScanFile` computes |
| DataSlicer.Slicer.VisitFiles | exRnaDataSlicer.rb:184-195 | the file loop ends in the state `ScanFiles` computes |
| DataSlicer.Slicer.ReadResultFiles | exRnaDataSlicer.rb:182-195 | reading and scanning a Result Files document ends as `ScanResultFilesDoc` |
| DataSlicer.Slicer.VisitBiosample | exRnaDataSlicer.rb:177-195 | one Related Biosamples entry ends as `ScanBiosample` |
| DataSlicer.Slicer.VisitBiosamples | exRnaDataSlicer.rb:176-196 | the biosample loop ends as `ScanBiosamples` |
| DataSlicer.Slicer.VisitJob | exRnaDataSlicer.rb:167-196 | one job ends as `ScanJob`, with its `jobFound` contribution |
| DataSlicer.Slicer.VisitNextJob | exRnaDataSlicer.rb:166-197 | one more turn of the job loop extends the scan by that job |
| DataSlicer.Slicer.VisitJobs | exRnaDataSlicer.rb:165-197 | the job loop ends as `ScanJobs`, with `jobFound` |
| DataSlicer.Slicer.ProcessSample | exRnaDataSlicer.rb:157-205 | one sample ends as `RunSample` |
| DataSlicer.Slicer.ProcessSamples | exRnaDataSlicer.rb:154-205 | the sample loop ends as `RunSamples` |
| DataSlicer.Slicer.LoadJobs | exRnaDataSlicer.rb:148-152 | loading the jobs index ends as `LoadJobsIndex`: raised, rejected by its status, or loaded |
| DataSlicer.Slicer.IntersectBedgraphs | exRnaDataSlicer.rb:221-227 | one helper run per bedgraph, and one failure message per exit status 1, nothing else changed |
| DataSlicer.Slicer.MergeIntersections | exRnaDataSlicer.rb:230-242 | collects the listing and its sample names, runs the merge helper once, and appends the entry "Merging intersections" (the constant `Merging.MergeFailure`) exactly on exit status 1 |

## Left out

- `curl`, `xz`, `sort` and `dataSlicerHelper.sh` are external processes (lines 22-35, 67, 214, 224, 240).
  - A request copies the remote document, if any, into the cache.
  - A download adds the archive when its URL is available.
  - `xz -d` replaces the archive by its stem.
  - The helper is represented by its exit status, a parameter.
  - Partial or corrupt downloads are not modelled, and neither are failures of `xz` itself.
- `JSON.load` and `File.read` (lines 50-53) are not modelled: documents are already-parsed trees. JSON floating-point numbers are not modelled, because JSON numbers are integers here.
- `Resolution.Download`, `Resolution.Fetched` and `Merging.MergeRun` assume every path and name is a single shell word without shell metacharacters. The script interpolates them into shell commands, mostly without quotes (lines 24, 29, 34, 67, 224, 240), so a biosample with a space in its name would make `curl` write elsewhere and the download be reported as failed; that is not modelled.
- `Resolution.Decompressed` strips only ".xz". `xz -d` also accepts ".txz", ".lzma", ".tlz" and ".lz" names, which a URL basename other than the target name could carry.
- `URI()` parsing (line 186) is not modelled: the URL is a string, and a non-string value raises. Two differences follow.
  - A string that is not a valid URI (one holding a space, say) makes `URI()` raise and ends the run; the model downloads it.
  - `URI#to_s` may normalise the text (lower-casing the scheme, for one); the model logs and names the archive after the text as read.
- `Documents.Render`: Ruby's `to_s` of an array or hash (line 179) is the `inspect` parameter of `Env`, because its exact text depends on the Ruby version.
- `RubyText.Basename` is the text after the last '/'. It differs from `File.basename` for a path ending in '/', which `File.basename` strips first. The script's own paths never end in '/', but the URL at line 187 comes from a remote document; a URL path ending in '/' would give a different archive name there.
- `RubyText.Fold`: case-insensitive matching folds ASCII letters only. Ruby folds by Unicode rules, under which some non-ASCII characters match ASCII letters (the Kelvin sign matches `k` in `/ok/i` at line 45, the long s matches `s` in `/biosample|analysis/i` at line 86); those are not modelled.
- `RubyText.ToI` reads spaces, a sign and decimal digits, as its contract states. Underscores between digits ("1_0" is 10 in Ruby) are not modelled, and neither is the `0d`/`0D` radix prefix Ruby skips after the sign ("0d12" is 12 in Ruby, 0 here). Every key the script navigates with starts with a letter, so neither affects it.
- Option parsing, directory creation, the input-file checks and the usage exits (lines 104-146) are not modelled. They are command-line and I/O plumbing.
- `cleanup` (lines 93-102) and the final report (lines 257-265) are not modelled. They are file deletion and console output.
- All `puts` output is not modelled.
- The ROI sort (lines 207-214) is not modelled. The name of the sorted file is a parameter of the intersection step.
- The directory listings of lines 221 and 232 are parameters. Their order is the order `Dir[]` returns. They are not tied to `World.files`: the model does not link the bedgraphs the intersection step reads to those the sample loop produced, or the intersection files the merge step reads to those the intersection step wrote.
- No top-level member runs the whole script in one piece. The pieces are `LoadJobs`, `ProcessSamples`, `IntersectBedgraphs` and `MergeIntersections`, and the class runs them in that order when called that way.
- The cache files under tmp and the bedgraphs under tmp/bedgraphs are kept as two separate parts of the world. A document named like a bedgraph path is not modelled as the same file.

=== FILE: documents.dfy ===
/** The script's three document tests (exRnaDataSlicer.rb:44-63) and the Ruby
    conversions it applies to values read out of documents. */
module Documents {
  import opened Wrappers
  import opened RubyText
  import opened JsonPath

  // The dotted queries of lines 45, 56 and 61, written as their keys joined by
  // '.', which is the same string. The functions below navigate the keys;
  // the *Query lemmas prove that this is what `getFromJson` does with the
  // dotted strings.
  const StatusKeys := ["status", "msg"]
  const StatusPath := Join(StatusKeys, '.')
  const AnalysisKeys := ["data", "Job", "properties", "Related Analysis", "value"]
  const AnalysisPath := Join(AnalysisKeys, '.')
  const RelatedBiosampleKeys := ["Related Biosample", "value"]
  const RelatedBiosamplePath := Join(RelatedBiosampleKeys, '.')

  lemma StatusQuery(doc: Json)
    ensures GetFromJson(doc, StatusPath) == Navigate(doc, StatusKeys)
  {
    GetFromJoined(doc, StatusKeys);
  }

  lemma AnalysisQuery(doc: Json)
    ensures GetFromJson(doc, AnalysisPath) == Navigate(doc, AnalysisKeys)
  {
    GetFromJoined(doc, AnalysisKeys);
  }

  lemma RelatedBiosampleQuery(doc: Json)
    ensures GetFromJson(doc, RelatedBiosamplePath) == Navigate(doc, RelatedBiosampleKeys)
  {
    GetFromJoined(doc, RelatedBiosampleKeys);
  }

  /** Ruby `==` between a value read from a document and a sample-file field. */
  predicate SameValue(v: Json, f: Field)
  {
    match f
    case Some(s) => v == JStr(s)
    case None => v == JNull
  }

  /** The JSON value that Ruby's `==` equates with the field `f`. */
  function Encode(f: Field): Json
  {
    match f
    case Some(s) => JStr(s)
    case None => JNull
  }

  /** `checkJsonStatus?(doc, _)`. `None` is the exception the script does not
      rescue: `status.msg` is missing, or is not a string and has no `match`. */
  function CheckJsonStatus(doc: Json): Option<bool>
  {
    var msg := Navigate(doc, StatusKeys);
    if msg.Some? && msg.value.JStr? then Some(ContainsAnyCase(msg.value.str, "ok")) else None
  }

  /** The status test raises unless `status.msg` holds a string, and then
      passes exactly when "ok" occurs in it in any letter case. */
  lemma CheckJsonStatusMeaning(doc: Json)
    ensures var m := GetFromJson(doc, StatusPath);
      && (CheckJsonStatus(doc).Some? <==> m.Some? && m.value.JStr?)
      && (CheckJsonStatus(doc).Some? ==> (CheckJsonStatus(doc).value <==> exists i :: OccursAt(m.value.str, "ok", i, true)))
  {
    StatusQuery(doc);
  }

  /** `foundRightJson?(json, analysis)`: `None` when the path is missing. */
  function FoundRightJson(json: Json, analysis: Field): Option<bool>
  {
    match Navigate(json, AnalysisKeys)
    case None => None
    case Some(v) => Some(SameValue(v, analysis))
  }

  /** `foundRightRelatedBiosample?(json, biosample)`: `None` when the path is missing. */
  function FoundRightRelatedBiosample(json: Json, biosample: Field): Option<bool>
  {
    match Navigate(json, RelatedBiosampleKeys)
    case None => None
    case Some(v) => Some(SameValue(v, biosample))
  }

  /** Both matching tests raise exactly when their path is missing, and pass
      exactly when the value there is the one Ruby's `==` equates with the
      sample-file field. */
  lemma FoundRightMeaning(json: Json, f: Field)
    ensures FoundRightJson(json, f).None? <==> GetFromJson(json, AnalysisPath).None?
    ensures FoundRightJson(json, f) == Some(true) <==> GetFromJson(json, AnalysisPath) == Some(Encode(f))
    ensures FoundRightRelatedBiosample(json, f).None? <==> GetFromJson(json, RelatedBiosamplePath).None?
    ensures FoundRightRelatedBiosample(json, f) == Some(true) <==> GetFromJson(json, RelatedBiosamplePath) == Some(Encode(f))
  {
    AnalysisQuery(json);
    RelatedBiosampleQuery(json);
  }

  /** The items `.each` visits in a value the script iterates. An array yields
      its elements and an empty object nothing; a non-empty object yields
      `[key, value]` pairs, and every path the script then reads from an item
      starts with a non-numeric key, so `to_i` picks the key string and the next
      step raises; strings, numbers, booleans and nil have no `each`. `None`
      stands for that exception. */
  function Members(coll: Json): (r: Option<seq<Json>>)
    ensures r.Some? <==> coll.JArr? || coll == JObj(map[])
    ensures coll.JArr? ==> r == Some(coll.elems)
    ensures coll.JObj? && |coll.fields| == 0 ==> r == Some([])
  {
    match coll
    case JArr(a) => Some(a)
    case JObj(m) => if |m| == 0 then Some([]) else None
    case _ => None
  }

  /** The decimal digits of a natural number. */
  function NatToString(n: nat): (s: string)
    ensures |s| > 0 && AllDigits(s) && DecimalValue(s) == n
    ensures s[0] == '0' ==> n == 0
    decreases n
  {
    var last := [('0' as int + n % 10) as char];
    if n < 10 then
      assert DecimalValue(last) == 10 * DecimalValue(last[..0]) + n;
      last
    else
      var init := NatToString(n / 10);
      var s := init + last;
      assert s[..|s| - 1] == init;
      s
  }

  /** `"#{v}"` for a value read from a document. Arrays and objects render
      through `inspect`, which stands for Ruby's `Array#to_s` and `Hash#to_s`. */
  function Render(v: Json, inspect: Json -> string): string
  {
    match v
    case JStr(s) => s
    case JNull => ""
    case JBool(b) => if b then "true" else "false"
    case JNum(n) => if n < 0 then "-" + NatToString(-n) else NatToString(n)
    case _ => inspect(v)
  }

  /** The smallest document whose `status.msg` is `msg`. */
  function StatusDoc(msg: string): Json
  {
    JObj(map["status" := JObj(map["msg" := JStr(msg)])])
  }

  /** Any document whose `status.msg` is the string `msg` passes the status
      test exactly when "ok" occurs in `msg` in any letter case. */
  lemma StatusOfStoredMsg(doc: Json, msg: string)
    requires StoredAt(doc, StatusKeys, JStr(msg))
    ensures CheckJsonStatus(doc) == Some(ContainsAnyCase(msg, "ok"))
  {
    NavigateStored(doc, StatusKeys, JStr(msg));
  }

  lemma OkAt(msg: string, i: int)
    ensures OccursAt(msg, "ok", i, true) <==>
      (0 <= i < |msg| - 1 && (msg[i] == 'o' || msg[i] == 'O') && (msg[i + 1] == 'k' || msg[i + 1] == 'K'))
  {
    if 0 <= i < |msg| - 1 {
      assert "ok"[0] == 'o' && "ok"[1] == 'k';
      assert OccursAt(msg, "ok", i, true) <==> SameChar(msg[i], 'o', true) && SameChar(msg[i + 1], 'k', true);
    }
  }

  lemma ContainsOkIff(msg: string)
    ensures ContainsAnyCase(msg, "ok") <==>
      exists i | 0 <= i < |msg| - 1 :: (msg[i] == 'o' || msg[i] == 'O') && (msg[i + 1] == 'k' || msg[i + 1] == 'K')
  {
    if i :| OccursAt(msg, "ok", i, true) {
      OkAt(msg, i);
    }
    if i :| 0 <= i < |msg| - 1 && (msg[i] == 'o' || msg[i] == 'O') && (msg[i + 1] == 'k' || msg[i + 1] == 'K') {
      OkAt(msg, i);
    }
  }

  /** `checkJsonStatus?` accepts a status message exactly when "ok" occurs in
      it in any letter case, anywhere in the string. */
  lemma StatusAcceptsAnyOk(doc: Json, msg: string)
    requires StoredAt(doc, StatusKeys, JStr(msg))
    ensures CheckJsonStatus(doc) ==
      Some(exists i | 0 <= i < |msg| - 1 :: (msg[i] == 'o' || msg[i] == 'O') && (msg[i + 1] == 'k' || msg[i + 1] == 'K'))
  {
    StatusOfStoredMsg(doc, msg);
    ContainsOkIff(msg);
  }

  /** The unanchored match lets a status such as "Broken" through. */
  lemma BrokenStatusPasses()
    ensures CheckJsonStatus(StatusDoc("Broken")) == Some(true)
  {
    assert StoredAt(StatusDoc("Broken"), StatusKeys, JStr("Broken"));
    StatusAcceptsAnyOk(StatusDoc("Broken"), "Broken");
    assert "Broken"[2] == 'o' && "Broken"[3] == 'k';
  }

  /** A job document matches an analysis exactly when the value stored at
      `data.Job.properties.Related Analysis.value` equals it. */
  lemma JobDocumentMatch(doc: Json, v: Json, analysis: Field)
    requires StoredAt(doc, AnalysisKeys, v)
    ensures FoundRightJson(doc, analysis) == Some(v == Encode(analysis))
  {
    NavigateStored(doc, AnalysisKeys, v);
  }
}

=== FILE: json.dfy ===
/** Parsed JSON documents and `getFromJson`, the dotted-path lookup the script
    applies to every document it reads (exRnaDataSlicer.rb:37-42). */
module JsonPath {
  import opened Wrappers
  import opened RubyText

  /** A parsed JSON value, as `JSON.load` hands it to the script. */
  datatype Json =
    | JObj(fields: map<string, Json>)
    | JArr(elems: seq<Json>)
    | JStr(str: string)
    | JNum(num: int)
    | JBool(b: bool)
    | JNull
  {
    /** Strings, numbers, booleans and null: Ruby values without `fetch`. */
    predicate IsScalar()
    {
      !JObj? && !JArr?
    }
  }

  /** The position `Array#fetch(key.to_i)` reads in an array of length `len`:
      a negative index counts from the end. */
  function ArrayIndex(len: nat, key: string): (r: Option<nat>)
    ensures r.Some? <==> -(len as int) <= ToI(key) < len
    ensures r.Some? ==> r.value < len && r.value as int == (if ToI(key) < 0 then ToI(key) + len else ToI(key))
  {
    var i := ToI(key);
    var j := if i < 0 then i + len else i;
    if 0 <= j < len then Some(j) else None
  }

  /** One step of the fold: `memo.fetch(key)`, with `key.to_i` on arrays.
      `None` is the exception `fetch` raises (KeyError, IndexError, or
      NoMethodError on a scalar). */
  function Step(node: Json, key: string): (r: Option<Json>)
    ensures r.None? <==>
      || node.IsScalar()
      || (node.JObj? && key !in node.fields)
      || (node.JArr? && !(-|node.elems| <= ToI(key) < |node.elems|))
    ensures node.JObj? && key in node.fields ==> r == Some(node.fields[key])
    ensures node.JArr? && 0 <= ToI(key) < |node.elems| ==> r == Some(node.elems[ToI(key)])
    ensures node.JArr? && -|node.elems| <= ToI(key) < 0 ==> r == Some(node.elems[|node.elems| + ToI(key)])
  {
    match node
    case JObj(m) => if key in m then Some(m[key]) else None
    case JArr(a) =>
      (match ArrayIndex(|a|, key)
       case Some(j) => Some(a[j])
       case None => None)
    case _ => None
  }

  /** `keys.inject(node) { |memo, key| ... memo.fetch(key) }`: the first failing
      step ends the walk. */
  function Navigate(node: Json, keys: seq<string>): Option<Json>
    decreases |keys|
  {
    if |keys| == 0 then Some(node)
    else
      match Step(node, keys[0])
      case None => None
      case Some(next) => Navigate(next, keys[1..])
  }

  /** `getFromJson(data, query)`. */
  function GetFromJson(data: Json, query: string): Option<Json>
  {
    Navigate(data, Split(query, '.'))
  }

  /** Continue a walk that may already have failed. */
  function Then(start: Option<Json>, keys: seq<string>): Option<Json>
  {
    match start
    case None => None
    case Some(node) => Navigate(node, keys)
  }

  /** Navigation composes: walking `p + q` is walking `p`, then `q` from where
      `p` ended, and it fails if either part fails. */
  lemma {:induction false} NavigateAppend(node: Json, p: seq<string>, q: seq<string>)
    ensures Navigate(node, p + q) == Then(Navigate(node, p), q)
    decreases |p|
  {
    if |p| == 0 {
      assert p + q == q;
    } else {
      assert (p + q)[0] == p[0];
      assert (p + q)[1..] == p[1..] + q;
      match Step(node, p[0])
      case None =>
      case Some(next) => NavigateAppend(next, p[1..], q);
    }
  }

  /** The walk reaches step `i` and that step raises. */
  ghost predicate FailsAt(node: Json, keys: seq<string>, i: int)
    requires 0 <= i < |keys|
  {
    match Navigate(node, keys[..i])
    case None => false
    case Some(n) => Step(n, keys[i]).None?
  }

  /** Navigation yields no value exactly when some step hits an object without
      the key, an array without the `to_i` index, or a scalar (see `Step`). */
  lemma {:induction false} NavigateFailsIff(node: Json, keys: seq<string>)
    ensures Navigate(node, keys).None? <==> exists i | 0 <= i < |keys| :: FailsAt(node, keys, i)
    decreases |keys|
  {
    if |keys| > 0 {
      assert keys[..0] == [];
      match Step(node, keys[0])
      case None =>
        assert FailsAt(node, keys, 0);
      case Some(next) =>
        var rest := keys[1..];
        NavigateFailsIff(next, rest);
        assert !FailsAt(node, keys, 0);
        if j :| 0 <= j < |keys| && FailsAt(node, keys, j) {
          FailsAtShift(node, keys, next, j - 1);
        }
        if j :| 0 <= j < |rest| && FailsAt(next, rest, j) {
          FailsAtShift(node, keys, next, j);
        }
    }
  }

  lemma FailsAtShift(node: Json, keys: seq<string>, next: Json, i: int)
    requires 0 <= i < |keys| - 1 && Step(node, keys[0]) == Some(next)
    ensures FailsAt(node, keys, i + 1) == FailsAt(next, keys[1..], i)
  {
    var pre := keys[..i + 1];
    assert pre[0] == keys[0];
    assert pre[1..] == keys[1..][..i];
    assert Navigate(node, pre) == Navigate(next, keys[1..][..i]);
    assert keys[i + 1] == keys[1..][i];
  }

  /** Every object on the way holds the next key, and the value under the last
      key is `leaf`: the path is present in `node` and stores `leaf`. */
  ghost predicate StoredAt(node: Json, keys: seq<string>, leaf: Json)
    decreases |keys|
  {
    if |keys| == 0 then node == leaf
    else node.JObj? && keys[0] in node.fields && StoredAt(node.fields[keys[0]], keys[1..], leaf)
  }

  /** A path that is present returns exactly the value stored under it,
      whatever else the objects on the way hold. */
  lemma {:induction false} NavigateStored(node: Json, keys: seq<string>, leaf: Json)
    requires StoredAt(node, keys, leaf)
    ensures Navigate(node, keys) == Some(leaf)
    decreases |keys|
  {
    if |keys| > 0 {
      NavigateStored(node.fields[keys[0]], keys[1..], leaf);
    }
  }

  /** A dotted query made of keys without '.', the last one not empty,
      navigates exactly those keys. */
  lemma GetFromJoined(data: Json, keys: seq<string>)
    requires forall i | 0 <= i < |keys| :: '.' !in keys[i]
    requires keys == [] || keys[|keys| - 1] != ""
    ensures GetFromJson(data, Join(keys, '.')) == Navigate(data, keys)
  {
    SplitJoin(keys, '.');
  }

  /** Every key the script uses starts with a letter, so on an array it reads
      element 0: `to_i` of such a key is 0. */
  lemma LetterKeyOnArray(elems: seq<Json>, key: string)
    requires |key| > 0 && ('A' <= key[0] <= 'Z' || 'a' <= key[0] <= 'z')
    ensures Step(JArr(elems), key) == if |elems| == 0 then None else Some(elems[0])
  {
  }
}

=== FILE: merging.dfy ===
/** The intersection and merge stage (exRnaDataSlicer.rb:216-242): the runs
    of dataSlicerHelper.sh the script asks for, and the `failed` entries it
    adds when a run exits with status 1. The directory listings of lines 221
    and 232 are inputs, as is the helper's exit status. */
module Merging {
  import opened Wrappers
  import opened RubyText
  import opened Naming
  import opened Resolution

  /** One run of dataSlicerHelper.sh, with the arguments the script passes. */
  datatype HelperRun =
    | Intersect(sortedBed: string, bedgraph: string, output: string)   // line 224
    | Merge(names: string, paths: string, output: string)              // line 240

  function IntersectFailure(bedgraph: string, sortedBed: string): string
  {
    "Intersecting bedgraph: " + bedgraph + " with sortedBedFile: " + sortedBed
  }

  const MergeFailure := "Merging intersections"

  /** The runs of line 224, one per listed bedgraph, in listing order. */
  function IntersectRuns(tmp: string, sortedBed: string, listing: seq<string>): (r: seq<HelperRun>)
    ensures |r| == |listing|
    ensures forall i | 0 <= i < |r| :: r[i] == Intersect(sortedBed, listing[i], IntersectionFile(tmp, listing[i]))
    decreases |listing|
  {
    if |listing| == 0 then []
    else
      var bg := listing[|listing| - 1];
      IntersectRuns(tmp, sortedBed, listing[..|listing| - 1]) + [Intersect(sortedBed, bg, IntersectionFile(tmp, bg))]
  }

  /** The entries of line 226: one per listed bedgraph whose run exited with
      status exactly 1. */
  function IntersectFailures(sortedBed: string, listing: seq<string>, exit: string -> Option<int>): seq<Failure>
    decreases |listing|
  {
    if |listing| == 0 then []
    else
      var bg := listing[|listing| - 1];
      IntersectFailures(sortedBed, listing[..|listing| - 1], exit)
        + (if IsFailureStatus(exit(bg)) then [Msg(IntersectFailure(bg, sortedBed))] else [])
  }

  /** The listed bedgraphs whose run exited with status exactly 1, in order. */
  function Failing(listing: seq<string>, exit: string -> Option<int>): (r: seq<string>)
    ensures forall k | 0 <= k < |r| :: r[k] in listing && exit(r[k]) == Some(1)
    decreases |listing|
  {
    if |listing| == 0 then []
    else
      var bg := listing[|listing| - 1];
      Failing(listing[..|listing| - 1], exit) + (if exit(bg) == Some(1) then [bg] else [])
  }

  /** The names line 234 derives, one per listed intersection file. */
  function SampleNames(listing: seq<string>): (r: seq<Field>)
    ensures |r| == |listing|
    ensures forall i | 0 <= i < |r| :: r[i] == SampleName(listing[i])
    decreases |listing|
  {
    if |listing| == 0 then [] else SampleNames(listing[..|listing| - 1]) + [SampleName(listing[|listing| - 1])]
  }

  /** The names as line 240 interpolates them: a nil name becomes "". */
  function Interps(names: seq<Field>): (r: seq<string>)
    ensures |r| == |names|
    ensures forall k | 0 <= k < |r| :: r[k] == Interp(names[k])
    decreases |names|
  {
    if |names| == 0 then [] else Interps(names[..|names| - 1]) + [Interp(names[|names| - 1])]
  }

  /** The run of line 240 for the listed intersection files: the names and
      the paths, each joined by spaces. */
  function MergeRun(listing: seq<string>, outFile: string): HelperRun
  {
    Merge(Join(Interps(SampleNames(listing)), ' '), Join(listing, ' '), outFile)
  }

  lemma IntersectRunsNext(tmp: string, sortedBed: string, listing: seq<string>, i: nat)
    requires i < |listing|
    ensures IntersectRuns(tmp, sortedBed, listing[..i + 1])
         == IntersectRuns(tmp, sortedBed, listing[..i]) + [Intersect(sortedBed, listing[i], IntersectionFile(tmp, listing[i]))]
  {
    assert listing[..i + 1][..i] == listing[..i];
  }

  lemma IntersectFailuresNext(sortedBed: string, listing: seq<string>, exit: string -> Option<int>, i: nat)
    requires i < |listing|
    ensures IntersectFailures(sortedBed, listing[..i + 1], exit)
         == IntersectFailures(sortedBed, listing[..i], exit)
          + (if IsFailureStatus(exit(listing[i])) then [Msg(IntersectFailure(listing[i], sortedBed))] else [])
  {
    assert listing[..i + 1][..i] == listing[..i];
  }

  lemma SampleNamesNext(listing: seq<string>, i: nat)
    requires i < |listing|
    ensures SampleNames(listing[..i + 1]) == SampleNames(listing[..i]) + [SampleName(listing[i])]
  {
    assert listing[..i + 1][..i] == listing[..i];
  }

  // ---------------------------------------------------------------------
  // Properties

  /** A listed bedgraph is reported exactly when its run exited with status 1,
      and the reports come in listing order. */
  lemma {:induction false} FailingComplete(listing: seq<string>, exit: string -> Option<int>)
    ensures forall i | 0 <= i < |listing| && exit(listing[i]) == Some(1) :: listing[i] in Failing(listing, exit)
    decreases |listing|
  {
    if |listing| > 0 {
      var init := listing[..|listing| - 1];
      FailingComplete(init, exit);
      forall i | 0 <= i < |listing| && exit(listing[i]) == Some(1)
        ensures listing[i] in Failing(listing, exit)
      {
        if i < |listing| - 1 {
          assert listing[i] == init[i];
        }
      }
    }
  }

  /** The entries the intersection loop adds are the messages for the failing
      bedgraphs, one each, in order. */
  lemma {:induction false} IntersectFailuresOfFailing(sortedBed: string, listing: seq<string>, exit: string -> Option<int>)
    ensures var r := IntersectFailures(sortedBed, listing, exit);
      && |r| == |Failing(listing, exit)|
      && forall k | 0 <= k < |r| :: r[k] == Msg(IntersectFailure(Failing(listing, exit)[k], sortedBed))
    decreases |listing|
  {
    if |listing| > 0 {
      IntersectFailuresOfFailing(sortedBed, listing[..|listing| - 1], exit);
    }
  }

  /** Runs that exit with any status other than 1 add no entry. */
  lemma {:induction false} OnlyStatusOneReported(sortedBed: string, listing: seq<string>, exit: string -> Option<int>)
    requires forall i | 0 <= i < |listing| :: exit(listing[i]) != Some(1)
    ensures IntersectFailures(sortedBed, listing, exit) == []
    decreases |listing|
  {
    if |listing| > 0 {
      OnlyStatusOneReported(sortedBed, listing[..|listing| - 1], exit);
    }
  }

  /** For the intersection files of the coverage files of biosamples whose
      names hold no '/' and no marker, line 234 gives back the biosamples. */
  lemma {:induction false} MergeNamesRecovered(tmp: string, biosamples: seq<string>, listing: seq<string>)
    requires |listing| == |biosamples|
    requires forall i | 0 <= i < |listing| :: listing[i] == IntersectionFile(tmp, BedgraphFile(tmp, Some(biosamples[i])))
    requires forall i | 0 <= i < |biosamples| :: '/' !in biosamples[i] && !Contains(biosamples[i], Marker)
    ensures forall i | 0 <= i < |listing| :: SampleNames(listing)[i] == Some(biosamples[i])
    decreases |listing|
  {
    if |listing| > 0 {
      var n := |listing|;
      var init, names := listing[..n - 1], biosamples[..n - 1];
      MergeNamesRecovered(tmp, names, init);
      SampleNameRecovered(tmp, biosamples[n - 1]);
      assert SampleNames(listing) == SampleNames(init) + [SampleName(listing[n - 1])];
      forall i | 0 <= i < n
        ensures SampleNames(listing)[i] == Some(biosamples[i])
      {
        if i < n - 1 {
          assert SampleNames(listing)[i] == SampleNames(init)[i] && biosamples[i] == names[i];
        }
      }
    }
  }

  /** When moreover no biosample name holds a space and the last is not
      empty, the names argument of the merge run, cut at every single space
      (a literal split, not Ruby's `split(' ')`, which would also skip empty
      names), gives back the biosamples in listing order. */
  lemma MergeNamesArgument(tmp: string, biosamples: seq<string>, listing: seq<string>, outFile: string)
    requires |listing| == |biosamples|
    requires forall i | 0 <= i < |listing| :: listing[i] == IntersectionFile(tmp, BedgraphFile(tmp, Some(biosamples[i])))
    requires forall i | 0 <= i < |biosamples| :: '/' !in biosamples[i] && !Contains(biosamples[i], Marker) && ' ' !in biosamples[i]
    requires biosamples == [] || biosamples[|biosamples| - 1] != ""
    ensures Split(MergeRun(listing, outFile).names, ' ') == biosamples
  {
    MergeNamesRecovered(tmp, biosamples, listing);
    assert Interps(SampleNames(listing)) == biosamples;
    SplitJoin(biosamples, ' ');
  }
}

=== FILE: naming.dfy ===
/** File names the script derives (exRnaDataSlicer.rb:158, 187, 224, 234) and
    its reading of an external helper's exit status (lines 225, 241). */
module Naming {
  import opened Wrappers
  import opened RubyText

  const Alignments := "endogenousAlignments"
  const AlignedTail := "_genome_Aligned.bedgraph"
  /** The marker that line 234 splits intersection file names on. */
  const Marker := "_" + Alignments
  /** The tail of every per-sample coverage file name (line 158). */
  const BedgraphSuffix := Marker + AlignedTail
  /** The one Pipeline Result File the script downloads (line 185). */
  const TargetFileName := Alignments + AlignedTail + ".xz"

  function BedgraphDir(tmp: string): string
  {
    tmp + "/bedgraphs"
  }

  /** The decompressed coverage file of a biosample, whose presence makes the
      script skip the biosample (line 158). */
  function BedgraphFile(tmp: string, biosample: Field): string
  {
    BedgraphDir(tmp) + "/" + Interp(biosample) + BedgraphSuffix
  }

  /** Where the compressed coverage file from `url` is downloaded (line 187). */
  function XzFile(tmp: string, biosample: Field, url: string): string
  {
    BedgraphDir(tmp) + "/" + Interp(biosample) + "_" + Basename(url)
  }

  function IntersectDir(tmp: string): string
  {
    tmp + "/ind_intersection"
  }

  /** The output the helper writes for one coverage file (line 224). */
  function IntersectionFile(tmp: string, bedgraph: string): string
  {
    IntersectDir(tmp) + "/" + Basename(bedgraph) + "_intersect.bed"
  }

  /** `s` up to the first occurrence of `sep`, or all of `s`. */
  function PrefixBefore(s: string, sep: string): (p: string)
    ensures |p| <= |s| && p == s[..|p|]
    ensures forall i | 0 <= i < |p| :: !StartsWith(s[i..], sep, false)
    ensures |p| < |s| ==> StartsWith(s[|p|..], sep, false)
    decreases |s|
  {
    if StartsWith(s, sep, false) || |s| == 0 then ""
    else
      var rest := PrefixBefore(s[1..], sep);
      assert forall i | 1 <= i <= |s| :: s[i..] == s[1..][i - 1..];
      [s[0]] + rest
  }

  /** `s` is `sep` repeated zero or more times, which Ruby splits into nothing. */
  predicate OnlySeparators(s: string, sep: string)
    requires |sep| > 0
    decreases |s|
  {
    |s| == 0 || (StartsWith(s, sep, false) && OnlySeparators(s[|sep|..], sep))
  }

  /** `s.split(sep)[0]` for a non-empty separator: the text before the first
      separator, or `nil` when every field is empty. */
  function FirstField(s: string, sep: string): Field
    requires |sep| > 0
  {
    if OnlySeparators(s, sep) then None else Some(PrefixBefore(s, sep))
  }

  /** The sample name line 234 derives from an intersection file. */
  function SampleName(file: string): Field
  {
    FirstField(Basename(file), Marker)
  }

  /** Lines 225 and 241: only exit status 1 counts as a failure; `None` is the
      `nil` status of a helper killed by a signal. */
  predicate IsFailureStatus(status: Option<int>)
  {
    status == Some(1)
  }

  lemma {:induction false} PrefixBeforeAppend(x: string, y: string, sep: string)
    requires forall i | 0 <= i < |x| :: !StartsWith((x + y)[i..], sep, false)
    ensures PrefixBefore(x + y, sep) == x + PrefixBefore(y, sep)
    decreases |x|
  {
    if |x| == 0 {
      assert x + y == y;
    } else {
      assert !StartsWith((x + y)[0..], sep, false);
      assert (x + y)[0..] == x + y;
      var t := x[1..];
      assert (x + y)[1..] == t + y;
      forall i | 0 <= i < |t| ensures !StartsWith((t + y)[i..], sep, false) {
        assert (t + y)[i..] == (x + y)[i + 1..];
      }
      PrefixBeforeAppend(t, y, sep);
    }
  }

  /** No occurrence of the marker starts inside a name that does not contain it
      when the marker follows the name: the marker's only '_' is its first
      character. */
  lemma NoMarkerInside(b: string, tail: string, i: int)
    requires !Contains(b, Marker)
    requires 0 <= i < |b|
    ensures !StartsWith((b + Marker + tail)[i..], Marker, false)
  {
    var s := b + Marker + tail;
    if i + |Marker| <= |b| {
      assert !OccursAt(b, Marker, i, false);
      var j :| 0 <= j < |Marker| && !SameChar(b[i + j], Marker[j], false);
      assert s[i..][j] == b[i + j];
    } else {
      var k := |b| - i;
      MarkerShape();
      assert s[i..][k] == s[|b|] == Marker[0];
    }
  }

  lemma MarkerShape()
    ensures Marker[0] == '_' && forall k | 1 <= k < |Marker| :: Marker[k] != '_'
    ensures '/' !in Marker
  {
    forall i | 0 <= i < |Marker| ensures Marker[i] != '/' && (i > 0 ==> Marker[i] != '_') {
      if i < 4 {} else if i < 8 {} else if i < 12 {} else if i < 16 {} else {}
    }
  }

  lemma SuffixHasNoSlash()
    ensures '/' !in BedgraphSuffix
  {
    var rest := AlignedTail;
    MarkerShape();
    forall i | 0 <= i < |rest| ensures rest[i] != '/' {
      if i < 4 {} else if i < 8 {} else if i < 12 {} else if i < 16 {} else if i < 20 {} else {}
    }
  }

  lemma BedgraphBasename(tmp: string, b: string)
    requires '/' !in b
    ensures Basename(BedgraphFile(tmp, Some(b))) == b + BedgraphSuffix
  {
    SuffixHasNoSlash();
    assert '/' !in b + BedgraphSuffix;
    assert BedgraphFile(tmp, Some(b)) == BedgraphDir(tmp) + "/" + (b + BedgraphSuffix);
    BasenameOfChild(BedgraphDir(tmp), b + BedgraphSuffix);
  }

  lemma IntersectionFileBasename(tmp: string, bedgraph: string)
    ensures Basename(IntersectionFile(tmp, bedgraph)) == Basename(bedgraph) + "_intersect.bed"
  {
    var name := Basename(bedgraph) + "_intersect.bed";
    var ext := "_intersect.bed";
    BasenameIsLastSegment(bedgraph);
    forall i | 0 <= i < |ext| ensures ext[i] != '/' {
      if i < 4 {} else if i < 8 {} else if i < 12 {} else {}
    }
    assert '/' !in name;
    assert IntersectionFile(tmp, bedgraph) == IntersectDir(tmp) + "/" + name;
    BasenameOfChild(IntersectDir(tmp), name);
  }

  /** The archive name the file loop looks for is the bedgraph suffix plus ".xz". */
  lemma TargetNameSuffix()
    ensures "_" + TargetFileName == BedgraphSuffix + ".xz"
  {
    assert "_" + (Alignments + AlignedTail + ".xz") == ("_" + Alignments) + AlignedTail + ".xz";
  }

  /** What follows the marker in the name of an intersection file. */
  const IntersectionTail := AlignedTail + "_intersect.bed"

  lemma IntersectionBasename(tmp: string, b: string)
    requires '/' !in b
    ensures Basename(IntersectionFile(tmp, BedgraphFile(tmp, Some(b)))) == b + Marker + IntersectionTail
  {
    BedgraphBasename(tmp, b);
    IntersectionFileBasename(tmp, BedgraphFile(tmp, Some(b)));
    var g := AlignedTail;
    var e := "_intersect.bed";
    assert b + BedgraphSuffix + e == b + Marker + (g + e);
  }

  lemma FirstFieldBeforeMarker(b: string)
    requires !Contains(b, Marker)
    ensures FirstField(b + Marker + IntersectionTail, Marker) == Some(b)
  {
    var tail := IntersectionTail;
    var name := b + Marker + tail;
    assert name == b + (Marker + tail);
    forall i | 0 <= i < |b| ensures !StartsWith((b + (Marker + tail))[i..], Marker, false) {
      NoMarkerInside(b, tail, i);
    }
    PrefixBeforeAppend(b, Marker + tail, Marker);
    assert StartsWith(Marker + tail, Marker, false);
    assert !OnlySeparators(name, Marker) by {
      if |b| > 0 {
        NoMarkerInside(b, tail, 0);
        assert name[0..] == name;
      } else {
        assert name == Marker + tail;
        assert name[|Marker|..] == tail;
        assert tail[1] != Marker[1];
      }
    }
  }

  /** For a biosample without '/' and without `_endogenousAlignments`, the name
      recovered from its intersection file (line 234) is the biosample itself. */
  lemma SampleNameRecovered(tmp: string, b: string)
    requires '/' !in b && !Contains(b, Marker)
    ensures SampleName(IntersectionFile(tmp, BedgraphFile(tmp, Some(b)))) == Some(b)
  {
    IntersectionBasename(tmp, b);
    FirstFieldBeforeMarker(b);
  }

  /** Exit status 2, or a helper killed by a signal, is not a failure. */
  lemma OnlyStatusOneFails()
    ensures IsFailureStatus(Some(1))
    ensures !IsFailureStatus(Some(2)) && !IsFailureStatus(None) && !IsFailureStatus(Some(0))
  {
  }
}

=== FILE: resolution.dfy ===
/** The sample loop of exRnaDataSlicer.rb:148-205 as functions over an abstract
    world: the document cache under the tmp directory, the coverage files under
    tmp/bedgraphs, the `failed` list, and logs of the documents fetched and the
    URLs downloaded. The class in slicer.dfy runs the same loop step by step and
    is proved to end in the world these functions compute; the lemmas here state
    what the script promises about that world. */
module Resolution {
  import opened Wrappers
  import opened RubyText
  import opened JsonPath
  import opened Documents
  import opened SampleFile
  import opened Naming

  /** A knowledge-base document is requested by collection and name (line 28). */
  datatype DocKey = DocKey(docType: string, docName: string)

  /** What `curl` finds on the other side: the jobs index (line 23), each
      document, and the file URLs that download. */
  datatype Remote = Remote(jobsIndex: Option<Json>, docs: map<DocKey, Json>, files: set<string>)

  /** What stays fixed during a run: the tmp directory, the remote side, and
      `inspect`, standing for Ruby's `to_s` of an array or a hash. */
  datatype Env = Env(tmp: string, remote: Remote, inspect: Json -> string)

  /** An entry of `failed`: a message, or `failed` itself, which line 199
      appends to itself before the message. */
  datatype Failure = SelfRef | Msg(text: string)

  /** Everything the loop reads and changes. `cache` maps the path of each
      cache file to the document in it; `files` holds the paths under
      tmp/bedgraphs; `fetches` logs every document request in order and
      `downloads` every file URL requested. */
  datatype World = World(
    cache: map<string, Json>,
    files: set<string>,
    failed: seq<Failure>,
    fetches: seq<string>,
    downloads: seq<string>)

  /** The loop goes on, or Ruby raised and the run died in world `w`. */
  datatype Outcome = Going(w: World) | Died(w: World)

  /** A scan of the jobs index, with the `jobFound` flag. */
  datatype JobsScan = JobsScan(out: Outcome, found: bool)

  // The dotted queries of lines 166-186, as their keys; the query strings are
  // these keys joined by '.', and the *Query lemmas of ResolutionFacts prove that
  // `getFromJson` on those strings navigates exactly these keys.
  const JobsKeys := ["data"]
  const JobNameKeys := ["Job", "value"]
  const BiosamplesKeys := ["data", "Job", "properties", "Related Biosamples", "items"]
  const ResultFilesKeys := ["Related Biosample", "properties", "Related Result Files", "value"]
  const PipelineFilesKeys :=
    ["data", "Result Files", "properties", "Biosample ID", "properties", "Pipeline Result Files", "items"]
  const FileNameKeys := ["File ID", "properties", "File Name", "value"]
  const UrlKeys := ["File ID", "properties", "Genboree URL", "value"]

  /** The cache file of a document: by name only, whatever its collection
      (lines 168 and 179). */
  function CachePath(tmp: string, name: string): string
  {
    tmp + "/" + name + ".metadata.tsv"
  }

  /** The cache file of the jobs index (line 148). */
  function JobsIndexPath(tmp: string): string
  {
    tmp + "/alljobs.json"
  }

  function DownloadFailure(biosample: Field): string
  {
    "Failed to download bedgraph for " + Interp(biosample)
  }

  function RemoteDoc(env: Env, key: DocKey): Option<Json>
  {
    if key in env.remote.docs then Some(env.remote.docs[key]) else None
  }

  /** `curl ... unless File.exist?(path)`: a request is made only when the
      cache file is absent, and it creates the file only when the remote side
      answers. */
  function Fetched(w: World, path: string, answer: Option<Json>): World
  {
    if path in w.cache then w
    else
      w.(cache := if answer.Some? then w.cache[path := answer.value] else w.cache,
         fetches := w.fetches + [path])
  }

  /** `readFileToJson(path)`: `None` is the exception `File.read` raises on a
      missing file. */
  function ReadDoc(w: World, path: string): Option<Json>
  {
    if path in w.cache then Some(w.cache[path]) else None
  }

  /** The string at `keys`; `None` when the path is missing or holds
      another kind of value, where the script's string operations raise. */
  function StringAt(doc: Json, keys: seq<string>): Option<string>
  {
    var v := Navigate(doc, keys);
    if v.Some? && v.value.JStr? then Some(v.value.str) else None
  }

  /** A value the script iterates with `.each`, read at `keys`. */
  function Collection(doc: Json, keys: seq<string>): Option<seq<Json>>
  {
    match Navigate(doc, keys)
    case None => None
    case Some(coll) => Members(coll)
  }

  /** The effect of `xz -d xz`: the archive is replaced by its stem. xz leaves
      everything as it is when the name does not end in ".xz" or the stem
      exists already. */
  function Decompressed(files: set<string>, xz: string): set<string>
  {
    var n := |xz|;
    if n >= 3 && xz[n - 3..] == ".xz" && xz[..n - 3] !in files then files - {xz} + {xz[..n - 3]}
    else files
  }

  /** Lines 186-194: download, then `decompressBedgraphXZ`, which only checks
      that the archive exists. */
  function Download(w: World, env: Env, biosample: Field, url: string): World
  {
    var xz := XzFile(env.tmp, biosample, url);
    var got := if url in env.remote.files then w.files + {xz} else w.files;
    var w1 := w.(files := got, downloads := w.downloads + [url]);
    if xz in got then w1.(files := Decompressed(got, xz))
    else w1.(failed := w1.failed + [Msg(DownloadFailure(biosample))])
  }

  /** One Pipeline Result File (lines 185-194). */
  function ScanFile(w: World, env: Env, biosample: Field, file: Json): Outcome
  {
    match Navigate(file, FileNameKeys)
    case None => Died(w)
    case Some(name) =>
      if name != JStr(TargetFileName) then Going(w)
      else
        match StringAt(file, UrlKeys)
        case Some(url) => Going(Download(w, env, biosample, url))
        case None => Died(w)   // URI() of a non-string raises
  }

  /** The loop of line 184. */
  function ScanFiles(w: World, env: Env, biosample: Field, items: seq<Json>): Outcome
    decreases |items|
  {
    if |items| == 0 then Going(w)
    else
      match ScanFiles(w, env, biosample, items[..|items| - 1])
      case Died(w') => Died(w')
      case Going(w') => ScanFile(w', env, biosample, items[|items| - 1])
  }

  /** Lines 182-195, once the Result Files document has been requested. */
  function ScanResultFilesDoc(w: World, env: Env, biosample: Field, path: string): Outcome
  {
    match ReadDoc(w, path)
    case None => Died(w)
    case Some(doc) =>
      match CheckJsonStatus(doc)
      case None => Died(w)
      case Some(false) => Going(w)
      case Some(true) =>
        match Collection(doc, PipelineFilesKeys)
        case None => Died(w)
        case Some(items) => ScanFiles(w, env, biosample, items)
  }

  /** One Related Biosamples entry (lines 177-195). */
  function ScanBiosample(w: World, env: Env, biosample: Field, related: Json): Outcome
  {
    match FoundRightRelatedBiosample(related, biosample)
    case None => Died(w)
    case Some(false) => Going(w)
    case Some(true) =>
      match Navigate(related, ResultFilesKeys)
      case None => Died(w)
      case Some(ref) => ScanResultFiles(w, env, biosample, Render(ref, env.inspect))
  }

  /** Lines 178-195: the Result Files document `name` is requested unless its
      cache file exists, then read and scanned. */
  function ScanResultFiles(w: World, env: Env, biosample: Field, name: string): Outcome
  {
    var path := CachePath(env.tmp, name);
    ScanResultFilesDoc(Fetched(w, path, RemoteDoc(env, DocKey("Result Files", name))), env, biosample, path)
  }

  /** The loop of line 176. */
  function ScanBiosamples(w: World, env: Env, biosample: Field, items: seq<Json>): Outcome
    decreases |items|
  {
    if |items| == 0 then Going(w)
    else
      match ScanBiosamples(w, env, biosample, items[..|items| - 1])
      case Died(w') => Died(w')
      case Going(w') => ScanBiosample(w', env, biosample, items[|items| - 1])
  }

  /** Lines 171-196, once the job document has been requested. */
  function ScanJobDoc(w: World, env: Env, s: Sample, path: string): JobsScan
  {
    match ReadDoc(w, path)
    case None => JobsScan(Died(w), false)
    case Some(doc) =>
      match CheckJsonStatus(doc)
      case None => JobsScan(Died(w), false)
      case Some(false) => JobsScan(Going(w), false)
      case Some(true) =>
        match FoundRightJson(doc, s.analysis)
        case None => JobsScan(Died(w), false)
        case Some(false) => JobsScan(Going(w), false)
        case Some(true) =>
          match Collection(doc, BiosamplesKeys)
          case None => JobsScan(Died(w), true)
          case Some(items) => JobsScan(ScanBiosamples(w, env, s.biosample, items), true)
  }

  /** One entry of the jobs index (lines 167-196); `found` is whether it set
      `jobFound`, which happens on the analysis match alone (line 175). */
  function ScanJob(w: World, env: Env, s: Sample, item: Json): JobsScan
  {
    match StringAt(item, JobNameKeys)
    case None => JobsScan(Died(w), false)   // a missing name raises, and so does `match` on a non-string
    case Some(name) =>
      if Contains(name, "PCR") then JobsScan(Going(w), false)
      else
        var path := CachePath(env.tmp, name);
        ScanJobDoc(Fetched(w, path, RemoteDoc(env, DocKey("Jobs", name))), env, s, path)
  }

  /** The loop of line 166, continued from `start`. */
  function ScanJobsFrom(start: JobsScan, env: Env, s: Sample, items: seq<Json>): JobsScan
    decreases |items|
  {
    if |items| == 0 then start
    else
      var prev := ScanJobsFrom(start, env, s, items[..|items| - 1]);
      match prev.out
      case Died(_) => prev
      case Going(w') =>
        var r := ScanJob(w', env, s, items[|items| - 1]);
        JobsScan(r.out, prev.found || r.found)
  }

  /** The loop of line 166 from `jobFound = FALSE` (line 165). */
  function ScanJobs(w: World, env: Env, s: Sample, items: seq<Json>): JobsScan
  {
    ScanJobsFrom(JobsScan(Going(w), false), env, s, items)
  }

  /** The jobs listed in the index, as line 166 iterates them. */
  function JobItems(allJobs: Json): Option<seq<Json>>
  {
    Collection(allJobs, JobsKeys)
  }

  /** One sample (lines 158-204). */
  function RunSample(w: World, env: Env, allJobs: Json, s: Sample): Outcome
  {
    if BedgraphFile(env.tmp, s.biosample) in w.files then Going(w)
    else
      match JobItems(allJobs)
      case None => Died(w)
      case Some(items) =>
        var scan := ScanJobs(w, env, s, items);
        match scan.out
        case Died(w') => Died(w')
        case Going(w') =>
          if scan.found then Going(w')
          else Going(w'.(failed := w'.failed + [SelfRef, Msg(DownloadFailure(s.biosample))]))
  }

  /** The loop of line 157, over the samples in hash order. */
  function RunSamples(w: World, env: Env, allJobs: Json, samples: SampleTable): Outcome
    decreases |samples|
  {
    if |samples| == 0 then Going(w)
    else
      match RunSamples(w, env, allJobs, samples[..|samples| - 1])
      case Died(w') => Died(w')
      case Going(w') => RunSample(w', env, allJobs, samples[|samples| - 1])
  }

  /** Loading the jobs index (lines 148-152). */
  datatype IndexLoad = Loaded(w: World, jobs: Json) | LoadDied(w: World) | Rejected(w: World)

  function LoadJobsIndex(w: World, env: Env): IndexLoad
  {
    var path := JobsIndexPath(env.tmp);
    var w1 := Fetched(w, path, env.remote.jobsIndex);
    match ReadDoc(w1, path)
    case None => LoadDied(w1)
    case Some(jobs) =>
      match CheckJsonStatus(jobs)
      case None => LoadDied(w1)
      case Some(false) => Rejected(w1)   // exit(1)
      case Some(true) => Loaded(w1, jobs)
  }
}

=== FILE: resolution_facts.dfy ===
/** What the sample loop of exRnaDataSlicer.rb:154-205 promises, proved about
    the functions of module Resolution. */
module ResolutionFacts {
  import opened Wrappers
  import opened RubyText
  import opened JsonPath
  import opened Documents
  import opened SampleFile
  import opened Naming
  import opened Resolution

  /** Documents with different names have different cache files, and a job
      and a Result Files document of the same name share one (lines 168 and
      179 name the file by the document name alone). */
  lemma CachePathDistinct(tmp: string, a: string, b: string)
    ensures CachePath(tmp, a) == CachePath(tmp, b) <==> a == b
  {
    if CachePath(tmp, a) == CachePath(tmp, b) {
      var start := |tmp| + 1;
      assert a == CachePath(tmp, a)[start..start + |a|];
      assert b == CachePath(tmp, b)[start..start + |b|];
    }
  }

  // ---------------------------------------------------------------------
  // The dotted queries of lines 166-186

  // `getFromJson` on each dotted query string of the loop navigates exactly
  // the keys the loop functions use.

  /** The query on the jobs index (line 166). */
  lemma JobsQuery(doc: Json)
    ensures GetFromJson(doc, Join(JobsKeys, '.')) == Navigate(doc, JobsKeys)
  {
    GetFromJoined(doc, JobsKeys);
  }

  /** The query on a job entry (line 167). */
  lemma JobNameQuery(doc: Json)
    ensures GetFromJson(doc, Join(JobNameKeys, '.')) == Navigate(doc, JobNameKeys)
  {
    GetFromJoined(doc, JobNameKeys);
  }

  /** The query on a job document (line 176). */
  lemma BiosamplesQuery(doc: Json)
    ensures GetFromJson(doc, Join(BiosamplesKeys, '.')) == Navigate(doc, BiosamplesKeys)
  {
    GetFromJoined(doc, BiosamplesKeys);
  }

  /** The query on a Related Biosamples entry (line 178). */
  lemma ResultFilesQuery(doc: Json)
    ensures GetFromJson(doc, Join(ResultFilesKeys, '.')) == Navigate(doc, ResultFilesKeys)
  {
    GetFromJoined(doc, ResultFilesKeys);
  }

  /** The query on a Result Files document (line 184). */
  lemma PipelineFilesQuery(doc: Json)
    ensures GetFromJson(doc, Join(PipelineFilesKeys, '.')) == Navigate(doc, PipelineFilesKeys)
  {
    GetFromJoined(doc, PipelineFilesKeys);
  }

  /** The query on a Pipeline Result File (line 185). */
  lemma FileNameQuery(doc: Json)
    ensures GetFromJson(doc, Join(FileNameKeys, '.')) == Navigate(doc, FileNameKeys)
  {
    GetFromJoined(doc, FileNameKeys);
  }

  /** The query on a Pipeline Result File (line 186). */
  lemma UrlQuery(doc: Json)
    ensures GetFromJson(doc, Join(UrlKeys, '.')) == Navigate(doc, UrlKeys)
  {
    GetFromJoined(doc, UrlKeys);
  }

  // ---------------------------------------------------------------------
  // Samples whose coverage file exists (lines 158-163)

  /** A sample whose bedgraph exists leaves the world exactly as it was: no
      document request, no download, no failure entry. */
  lemma PresentSampleSkipped(w: World, env: Env, allJobs: Json, s: Sample)
    requires BedgraphFile(env.tmp, s.biosample) in w.files
    ensures RunSample(w, env, allJobs, s) == Going(w)
  {
  }

  /** When every sample's bedgraph exists, the whole loop is a no-op. */
  lemma {:induction false} PresentSamplesSkipped(w: World, env: Env, allJobs: Json, samples: SampleTable)
    requires forall i | 0 <= i < |samples| :: BedgraphFile(env.tmp, samples[i].biosample) in w.files
    ensures RunSamples(w, env, allJobs, samples) == Going(w)
  {
    if |samples| > 0 {
      PresentSamplesSkipped(w, env, allJobs, samples[..|samples| - 1]);
    }
  }

  // ---------------------------------------------------------------------
  // One more element of a loop

  lemma ScanFilesNext(w: World, env: Env, b: Field, items: seq<Json>, i: nat)
    requires i < |items| && ScanFiles(w, env, b, items[..i]).Going?
    ensures ScanFiles(w, env, b, items[..i + 1]) == ScanFile(ScanFiles(w, env, b, items[..i]).w, env, b, items[i])
  {
    assert items[..i + 1][..i] == items[..i];
  }

  lemma ScanBiosamplesNext(w: World, env: Env, b: Field, items: seq<Json>, i: nat)
    requires i < |items| && ScanBiosamples(w, env, b, items[..i]).Going?
    ensures ScanBiosamples(w, env, b, items[..i + 1])
         == ScanBiosample(ScanBiosamples(w, env, b, items[..i]).w, env, b, items[i])
  {
    assert items[..i + 1][..i] == items[..i];
  }

  lemma ScanJobsNext(w: World, env: Env, s: Sample, items: seq<Json>, i: nat)
    requires i < |items| && ScanJobs(w, env, s, items[..i]).out.Going?
    ensures var prev := ScanJobs(w, env, s, items[..i]);
      var r := ScanJob(prev.out.w, env, s, items[i]);
      ScanJobs(w, env, s, items[..i + 1]) == JobsScan(r.out, prev.found || r.found)
  {
    assert items[..i + 1][..i] == items[..i];
  }

  lemma RunSamplesNext(w: World, env: Env, allJobs: Json, samples: SampleTable, i: nat)
    requires i < |samples| && RunSamples(w, env, allJobs, samples[..i]).Going?
    ensures RunSamples(w, env, allJobs, samples[..i + 1])
         == RunSample(RunSamples(w, env, allJobs, samples[..i]).w, env, allJobs, samples[i])
  {
    assert samples[..i + 1][..i] == samples[..i];
  }

  // ---------------------------------------------------------------------
  // Nothing rescues an exception: once a loop has died it stays dead

  lemma {:induction false} ScanFilesStopped(w: World, env: Env, b: Field, items: seq<Json>, k: nat)
    requires k <= |items| && ScanFiles(w, env, b, items[..k]).Died?
    ensures ScanFiles(w, env, b, items) == ScanFiles(w, env, b, items[..k])
    decreases |items|
  {
    if k < |items| {
      var init := items[..|items| - 1];
      assert init[..k] == items[..k];
      ScanFilesStopped(w, env, b, init, k);
    } else {
      assert items[..k] == items;
    }
  }

  lemma {:induction false} ScanBiosamplesStopped(w: World, env: Env, b: Field, items: seq<Json>, k: nat)
    requires k <= |items| && ScanBiosamples(w, env, b, items[..k]).Died?
    ensures ScanBiosamples(w, env, b, items) == ScanBiosamples(w, env, b, items[..k])
    decreases |items|
  {
    if k < |items| {
      var init := items[..|items| - 1];
      assert init[..k] == items[..k];
      ScanBiosamplesStopped(w, env, b, init, k);
    } else {
      assert items[..k] == items;
    }
  }

  lemma {:induction false} ScanJobsStopped(w: World, env: Env, s: Sample, items: seq<Json>, k: nat)
    requires k <= |items| && ScanJobs(w, env, s, items[..k]).out.Died?
    ensures ScanJobs(w, env, s, items) == ScanJobs(w, env, s, items[..k])
    decreases |items|
  {
    if k < |items| {
      var init := items[..|items| - 1];
      assert init[..k] == items[..k];
      ScanJobsStopped(w, env, s, init, k);
    } else {
      assert items[..k] == items;
    }
  }

  lemma {:induction false} RunSamplesStopped(w: World, env: Env, allJobs: Json, samples: SampleTable, k: nat)
    requires k <= |samples| && RunSamples(w, env, allJobs, samples[..k]).Died?
    ensures RunSamples(w, env, allJobs, samples) == RunSamples(w, env, allJobs, samples[..k])
    decreases |samples|
  {
    if k < |samples| {
      var init := samples[..|samples| - 1];
      assert init[..k] == samples[..k];
      RunSamplesStopped(w, env, allJobs, init, k);
    } else {
      assert samples[..k] == samples;
    }
  }

  // ---------------------------------------------------------------------
  // Document caching (lines 149, 170, 181)

  /** Every entry of the cache at `w0` is still there, unchanged, at `w`. */
  ghost predicate CacheKept(w0: World, w: World)
  {
    forall p | p in w0.cache :: p in w.cache && w.cache[p] == w0.cache[p]
  }

  /** From `w0` to `w` the cache only grows, and every document requested in
      between was for a path that had no cache file at `w0`. */
  ghost predicate Disciplined(w0: World, w: World)
  {
    && CacheKept(w0, w)
    && w0.fetches <= w.fetches
    && (forall i | |w0.fetches| <= i < |w.fetches| :: w.fetches[i] !in w0.cache)
  }

  /** As `Disciplined`, where moreover every request made in between created
      its cache file and no path was requested twice. */
  ghost predicate Settled(w0: World, w: World)
  {
    && Disciplined(w0, w)
    && (forall i | |w0.fetches| <= i < |w.fetches| :: w.fetches[i] in w.cache)
    && (forall i, j | |w0.fetches| <= i < j < |w.fetches| :: w.fetches[i] != w.fetches[j])
  }

  /** A run that goes on is settled; one that died may have left its last
      request without a cache file. */
  ghost predicate Behaved(w0: World, o: Outcome)
  {
    if o.Going? then Settled(w0, o.w) else Disciplined(w0, o.w)
  }

  lemma SettledStill(w0: World, w: World)
    requires w.cache == w0.cache && w.fetches == w0.fetches
    ensures Settled(w0, w)
  {
  }

  /** `Fetched` requests only a path with no cache file. */
  lemma FetchedBehaves(w: World, path: string, answer: Option<Json>)
    ensures Disciplined(w, Fetched(w, path, answer))
    ensures path in Fetched(w, path, answer).cache ==> Settled(w, Fetched(w, path, answer))
  {
  }

  /** Settled steps compose with whatever follows them. */
  lemma Chain(w0: World, w1: World, o: Outcome)
    requires Settled(w0, w1) && Behaved(w1, o)
    ensures Behaved(w0, o)
  {
    var w := o.w;
    var n0, n1 := |w0.fetches|, |w1.fetches|;
    assert w.fetches[..n0] == w1.fetches[..n0];
    forall i | n0 <= i < |w.fetches|
      ensures w.fetches[i] !in w0.cache
    {
      if i < n1 {
        assert w.fetches[i] == w1.fetches[i];
      }
    }
    if o.Going? {
      forall i | n0 <= i < |w.fetches|
        ensures w.fetches[i] in w.cache
      {
        if i < n1 {
          assert w.fetches[i] == w1.fetches[i];
        }
      }
      forall i, j | n0 <= i < j < |w.fetches|
        ensures w.fetches[i] != w.fetches[j]
      {
        if j < n1 {
          assert w.fetches[i] == w1.fetches[i] && w.fetches[j] == w1.fetches[j];
        } else if i < n1 {
          assert w.fetches[i] == w1.fetches[i];
          assert w.fetches[i] in w1.cache;
        }
      }
    }
  }

  lemma ScanFileBehaves(w: World, env: Env, b: Field, file: Json)
    ensures Behaved(w, ScanFile(w, env, b, file))
    ensures ScanFile(w, env, b, file).w.cache == w.cache
    ensures ScanFile(w, env, b, file).w.fetches == w.fetches
  {
    var o := ScanFile(w, env, b, file);
    if o.w != w {
      var url :| StringAt(file, UrlKeys) == Some(url) && o.w == Download(w, env, b, url);
      DownloadKeepsDocuments(w, env, b, url);
    }
    SettledStill(w, o.w);
  }

  /** A download touches the file system and the download log only. */
  lemma DownloadKeepsDocuments(w: World, env: Env, b: Field, url: string)
    ensures Download(w, env, b, url).cache == w.cache
    ensures Download(w, env, b, url).fetches == w.fetches
  {
  }

  lemma {:induction false} ScanFilesBehaves(w: World, env: Env, b: Field, items: seq<Json>)
    ensures Behaved(w, ScanFiles(w, env, b, items))
    decreases |items|
  {
    if |items| > 0 {
      var init := items[..|items| - 1];
      ScanFilesBehaves(w, env, b, init);
      match ScanFiles(w, env, b, init)
      case Died(_) =>
      case Going(w') =>
        ScanFileBehaves(w', env, b, items[|items| - 1]);
        Chain(w, w', ScanFile(w', env, b, items[|items| - 1]));
    }
  }

  lemma ScanResultFilesDocBehaves(w: World, env: Env, b: Field, path: string)
    ensures Behaved(w, ScanResultFilesDoc(w, env, b, path))
  {
    if path in w.cache && CheckJsonStatus(w.cache[path]) == Some(true) {
      match Collection(w.cache[path], PipelineFilesKeys)
      case None =>
      case Some(items) =>
        ScanFilesBehaves(w, env, b, items);
    }
  }

  lemma ScanResultFilesBehaves(w: World, env: Env, b: Field, name: string)
    ensures Behaved(w, ScanResultFiles(w, env, b, name))
  {
    var path := CachePath(env.tmp, name);
    var answer := RemoteDoc(env, DocKey("Result Files", name));
    var w1 := Fetched(w, path, answer);
    FetchedBehaves(w, path, answer);
    ScanResultFilesDocBehaves(w1, env, b, path);
    if path in w1.cache {
      Chain(w, w1, ScanResultFilesDoc(w1, env, b, path));
    }
  }

  lemma ScanBiosampleBehaves(w: World, env: Env, b: Field, related: Json)
    ensures Behaved(w, ScanBiosample(w, env, b, related))
  {
    var o := ScanBiosample(w, env, b, related);
    var ref := Navigate(related, ResultFilesKeys);
    if FoundRightRelatedBiosample(related, b) == Some(true) && ref.Some? {
      ScanResultFilesBehaves(w, env, b, Render(ref.value, env.inspect));
    } else {
      assert o.w == w;
      SettledStill(w, w);
    }
  }

  lemma {:induction false} ScanBiosamplesBehaves(w: World, env: Env, b: Field, items: seq<Json>)
    ensures Behaved(w, ScanBiosamples(w, env, b, items))
    decreases |items|
  {
    if |items| > 0 {
      var init := items[..|items| - 1];
      ScanBiosamplesBehaves(w, env, b, init);
      match ScanBiosamples(w, env, b, init)
      case Died(_) =>
      case Going(w') =>
        ScanBiosampleBehaves(w', env, b, items[|items| - 1]);
        Chain(w, w', ScanBiosample(w', env, b, items[|items| - 1]));
    }
  }

  lemma ScanJobDocBehaves(w: World, env: Env, s: Sample, path: string)
    ensures Behaved(w, ScanJobDoc(w, env, s, path).out)
  {
    if path in w.cache && CheckJsonStatus(w.cache[path]) == Some(true)
      && FoundRightJson(w.cache[path], s.analysis) == Some(true)
    {
      match Collection(w.cache[path], BiosamplesKeys)
      case None =>
      case Some(items) =>
        ScanBiosamplesBehaves(w, env, s.biosample, items);
    }
  }

  lemma ScanJobBehaves(w: World, env: Env, s: Sample, item: Json)
    ensures Behaved(w, ScanJob(w, env, s, item).out)
    ensures IsPcrJob(item) ==> ScanJob(w, env, s, item) == JobsScan(Going(w), false)
  {
    var job := StringAt(item, JobNameKeys);
    if job.Some? && !Contains(job.value, "PCR") {
      var path := CachePath(env.tmp, job.value);
      var answer := RemoteDoc(env, DocKey("Jobs", job.value));
      var w1 := Fetched(w, path, answer);
      assert ScanJob(w, env, s, item) == ScanJobDoc(w1, env, s, path);
      FetchedBehaves(w, path, answer);
      ScanJobDocBehaves(w1, env, s, path);
      if path in w1.cache {
        Chain(w, w1, ScanJobDoc(w1, env, s, path).out);
      }
    }
  }

  lemma {:induction false} ScanJobsBehaves(w: World, env: Env, s: Sample, items: seq<Json>)
    ensures Behaved(w, ScanJobs(w, env, s, items).out)
    decreases |items|
  {
    if |items| > 0 {
      var init := items[..|items| - 1];
      ScanJobsBehaves(w, env, s, init);
      match ScanJobs(w, env, s, init).out
      case Died(_) =>
      case Going(w') =>
        ScanJobBehaves(w', env, s, items[|items| - 1]);
        Chain(w, w', ScanJob(w', env, s, items[|items| - 1]).out);
    }
  }

  /** One sample requests only documents with no cache file, each at most once. */
  lemma RunSampleBehaves(w: World, env: Env, allJobs: Json, s: Sample)
    ensures Behaved(w, RunSample(w, env, allJobs, s))
  {
    if BedgraphFile(env.tmp, s.biosample) !in w.files {
      match JobItems(allJobs)
      case None =>
      case Some(items) =>
        ScanJobsBehaves(w, env, s, items);
    }
  }

  /** The whole sample loop requests only documents that had no cache file
      when it started, and none twice: a cache file that exists is never
      fetched again. */
  lemma {:induction false} RunSamplesBehaves(w: World, env: Env, allJobs: Json, samples: SampleTable)
    ensures Behaved(w, RunSamples(w, env, allJobs, samples))
    decreases |samples|
  {
    if |samples| > 0 {
      var init := samples[..|samples| - 1];
      RunSamplesBehaves(w, env, allJobs, init);
      match RunSamples(w, env, allJobs, init)
      case Died(_) =>
      case Going(w') =>
        RunSampleBehaves(w', env, allJobs, samples[|samples| - 1]);
        Chain(w, w', RunSample(w', env, allJobs, samples[|samples| - 1]));
    }
  }

  /** The jobs index is requested only when its cache file is missing. */
  lemma LoadJobsIndexCached(w: World, env: Env)
    ensures JobsIndexPath(env.tmp) in w.cache ==> LoadJobsIndex(w, env).w == w
    ensures Disciplined(w, LoadJobsIndex(w, env).w)
  {
  }

  // ---------------------------------------------------------------------
  // Jobs named with "PCR" (line 169)

  /** The job's name is a string containing "PCR", case-sensitively. */
  predicate IsPcrJob(item: Json)
  {
    var name := StringAt(item, JobNameKeys);
    name.Some? && Contains(name.value, "PCR")
  }

  /** The jobs index with its PCR jobs removed, order kept. */
  function WithoutPcr(items: seq<Json>): (r: seq<Json>)
    ensures |r| <= |items|
    ensures forall j | 0 <= j < |r| :: !IsPcrJob(r[j])
    ensures forall j | 0 <= j < |r| :: r[j] in items
    ensures forall j | 0 <= j < |items| && !IsPcrJob(items[j]) :: items[j] in r
    decreases |items|
  {
    if |items| == 0 then []
    else if IsPcrJob(items[|items| - 1]) then WithoutPcr(items[..|items| - 1])
    else WithoutPcr(items[..|items| - 1]) + [items[|items| - 1]]
  }

  /** Scanning the jobs index is the same as scanning it with its PCR jobs
      taken out: those jobs are never requested, never matched and never set
      `jobFound`. */
  lemma {:induction false} PcrJobsIgnored(start: JobsScan, env: Env, s: Sample, items: seq<Json>)
    ensures ScanJobsFrom(start, env, s, items) == ScanJobsFrom(start, env, s, WithoutPcr(items))
    decreases |items|
  {
    if |items| > 0 {
      var init, last := items[..|items| - 1], items[|items| - 1];
      PcrJobsIgnored(start, env, s, init);
      if !IsPcrJob(last) {
        var kept := WithoutPcr(init) + [last];
        assert kept[..|kept| - 1] == WithoutPcr(init);
      }
    }
  }

  // ---------------------------------------------------------------------
  // The jobFound flag (lines 165-175, 198)

  /** The tests a job passes to set `jobFound`, read in world `w`: a string
      name without "PCR", a job document (fetched if its cache file is
      missing) whose status is OK and whose Related Analysis is the
      sample's analysis. */
  ghost predicate Accepts(w: World, env: Env, analysis: Field, item: Json)
  {
    match StringAt(item, JobNameKeys)
    case None => false
    case Some(name) =>
      && !Contains(name, "PCR")
      && var path := CachePath(env.tmp, name);
         match ReadDoc(Fetched(w, path, RemoteDoc(env, DocKey("Jobs", name))), path)
         case None => false
         case Some(doc) => CheckJsonStatus(doc) == Some(true) && FoundRightJson(doc, analysis) == Some(true)
  }

  lemma ScanJobDocFound(w: World, env: Env, s: Sample, path: string)
    ensures ScanJobDoc(w, env, s, path).found ==
      match ReadDoc(w, path)
      case None => false
      case Some(doc) => CheckJsonStatus(doc) == Some(true) && FoundRightJson(doc, s.analysis) == Some(true)
  {
  }

  lemma ScanJobFound(w: World, env: Env, s: Sample, item: Json)
    ensures ScanJob(w, env, s, item).found == Accepts(w, env, s.analysis, item)
  {
    var job := StringAt(item, JobNameKeys);
    if job.Some? && !Contains(job.value, "PCR") {
      var path := CachePath(env.tmp, job.value);
      var w1 := Fetched(w, path, RemoteDoc(env, DocKey("Jobs", job.value)));
      assert ScanJob(w, env, s, item) == ScanJobDoc(w1, env, s, path);
      ScanJobDocFound(w1, env, s, path);
    }
  }

  /** A scan that gets through the whole index sets `jobFound` exactly when
      some job passes the tests, in the world the scan has reached when it
      comes to that job. */
  lemma {:induction false} JobFoundIff(w: World, env: Env, s: Sample, items: seq<Json>)
    requires ScanJobs(w, env, s, items).out.Going?
    ensures ScanJobs(w, env, s, items).found <==>
      exists i | 0 <= i < |items| :: Accepts(ScanJobs(w, env, s, items[..i]).out.w, env, s.analysis, items[i])
    decreases |items|
  {
    if |items| > 0 {
      var n := |items|;
      var init := items[..n - 1];
      JobFoundLast(w, env, s, items);
      JobFoundIff(w, env, s, init);
      forall i | 0 <= i < n - 1
        ensures Accepts(ScanJobs(w, env, s, items[..i]).out.w, env, s.analysis, items[i])
             == Accepts(ScanJobs(w, env, s, init[..i]).out.w, env, s.analysis, init[i])
      {
        JobsPrefixShift(w, env, s, items, i);
      }
    }
  }

  lemma JobsPrefixShift(w: World, env: Env, s: Sample, items: seq<Json>, i: nat)
    requires i < |items| - 1
    ensures var init := items[..|items| - 1];
      ScanJobs(w, env, s, items[..i]) == ScanJobs(w, env, s, init[..i]) && items[i] == init[i]
  {
    assert items[..|items| - 1][..i] == items[..i];
  }

  /** The last job of a scan that goes on sets `jobFound` exactly when it
      passes the tests. */
  lemma JobFoundLast(w: World, env: Env, s: Sample, items: seq<Json>)
    requires |items| > 0 && ScanJobs(w, env, s, items).out.Going?
    ensures var prev := ScanJobs(w, env, s, items[..|items| - 1]);
      && prev.out.Going?
      && (ScanJobs(w, env, s, items).found <==> prev.found || Accepts(prev.out.w, env, s.analysis, items[|items| - 1]))
  {
    var prev := ScanJobs(w, env, s, items[..|items| - 1]);
    assert prev.out.Going?;
    ScanJobFound(prev.out.w, env, s, items[|items| - 1]);
  }

  /** The job document of `item` has a cache file at `w`, or `item` is never requested. */
  ghost predicate Cached(w: World, env: Env, item: Json)
  {
    match StringAt(item, JobNameKeys)
    case None => true
    case Some(name) => Contains(name, "PCR") || CachePath(env.tmp, name) in w.cache
  }

  /** Accepting a job whose document is cached at `w0` does not depend on what
      the scan did since. */
  lemma AcceptsCached(w0: World, w: World, env: Env, analysis: Field, item: Json)
    requires Cached(w0, env, item) && CacheKept(w0, w)
    ensures Accepts(w, env, analysis, item) == Accepts(w0, env, analysis, item)
  {
  }

  /** With every job document already cached, `jobFound` ends true exactly
      when some job in the index is a non-PCR job whose document has an OK
      status and the sample's analysis. */
  lemma JobFoundCached(w: World, env: Env, s: Sample, items: seq<Json>)
    requires ScanJobs(w, env, s, items).out.Going?
    requires forall i | 0 <= i < |items| :: Cached(w, env, items[i])
    ensures ScanJobs(w, env, s, items).found <==>
      exists i | 0 <= i < |items| :: Accepts(w, env, s.analysis, items[i])
  {
    JobFoundIff(w, env, s, items);
    forall i | 0 <= i < |items|
      ensures Accepts(ScanJobs(w, env, s, items[..i]).out.w, env, s.analysis, items[i])
           == Accepts(w, env, s.analysis, items[i])
    {
      ScanJobsBehaves(w, env, s, items[..i]);
      AcceptsCached(w, ScanJobs(w, env, s, items[..i]).out.w, env, s.analysis, items[i]);
    }
  }

  /** A job that does not set `jobFound` and does not raise only reads and
      fetches documents. */
  lemma ScanJobUnmatched(w: World, env: Env, s: Sample, item: Json)
    requires ScanJob(w, env, s, item).out.Going? && !ScanJob(w, env, s, item).found
    ensures var w' := ScanJob(w, env, s, item).out.w;
      w'.files == w.files && w'.failed == w.failed && w'.downloads == w.downloads
  {
    var job := StringAt(item, JobNameKeys);
    if job.Some? && !Contains(job.value, "PCR") {
      var path := CachePath(env.tmp, job.value);
      var w1 := Fetched(w, path, RemoteDoc(env, DocKey("Jobs", job.value)));
      assert ScanJob(w, env, s, item) == ScanJobDoc(w1, env, s, path);
    }
  }

  lemma {:induction false} ScanJobsUnmatched(w: World, env: Env, s: Sample, items: seq<Json>)
    requires ScanJobs(w, env, s, items).out.Going? && !ScanJobs(w, env, s, items).found
    ensures var w' := ScanJobs(w, env, s, items).out.w;
      w'.files == w.files && w'.failed == w.failed && w'.downloads == w.downloads
    decreases |items|
  {
    if |items| > 0 {
      var init := items[..|items| - 1];
      var prev := ScanJobs(w, env, s, init);
      assert prev.out.Going? && !prev.found;
      ScanJobsUnmatched(w, env, s, init);
      ScanJobUnmatched(prev.out.w, env, s, items[|items| - 1]);
    }
  }

  /** A sample for which no job sets `jobFound` downloads nothing and leaves
      `failed` grown by exactly two entries: `failed` itself, then the
      sample's "Failed to download bedgraph" message. */
  lemma UnmatchedSampleRecorded(w: World, env: Env, allJobs: Json, s: Sample, items: seq<Json>)
    requires BedgraphFile(env.tmp, s.biosample) !in w.files
    requires JobItems(allJobs) == Some(items)
    requires ScanJobs(w, env, s, items).out.Going? && !ScanJobs(w, env, s, items).found
    ensures RunSample(w, env, allJobs, s).Going?
    ensures var w' := RunSample(w, env, allJobs, s).w;
      && w'.failed == w.failed + [SelfRef, Msg(DownloadFailure(s.biosample))]
      && w'.files == w.files
      && w'.downloads == w.downloads
  {
    ScanJobsUnmatched(w, env, s, items);
  }

  // ---------------------------------------------------------------------
  // Downloads (lines 184-194)

  /** The URL of a Pipeline Result File whose File Name is exactly the target
      name, if it has a string URL. */
  function TargetUrl(file: Json): Option<string>
  {
    if Navigate(file, FileNameKeys) == Some(JStr(TargetFileName)) then StringAt(file, UrlKeys) else None
  }

  /** The URLs of the target files among `items`, in order. */
  function TargetUrls(items: seq<Json>): seq<string>
    decreases |items|
  {
    if |items| == 0 then []
    else
      var last := TargetUrl(items[|items| - 1]);
      TargetUrls(items[..|items| - 1]) + (if last.Some? then [last.value] else [])
  }

  /** The file loop downloads exactly the target files, every one of them, in
      order: there is no early exit and no other name matches. */
  lemma {:induction false} ScanFilesDownloads(w: World, env: Env, b: Field, items: seq<Json>)
    requires ScanFiles(w, env, b, items).Going?
    ensures ScanFiles(w, env, b, items).w.downloads == w.downloads + TargetUrls(items)
    decreases |items|
  {
    if |items| > 0 {
      var init := items[..|items| - 1];
      assert ScanFiles(w, env, b, init).Going?;
      ScanFilesDownloads(w, env, b, init);
    }
  }

  /** A download records a failure exactly when the `.xz` archive is absent
      afterwards: the URL did not download and no such file was there. */
  lemma DownloadFailsIffMissing(w: World, env: Env, b: Field, url: string)
    ensures var xz := XzFile(env.tmp, b, url);
      Download(w, env, b, url).failed ==
        if xz in w.files || url in env.remote.files then w.failed
        else w.failed + [Msg(DownloadFailure(b))]
  {
  }

  /** The target archive is named after the sample's bedgraph. */
  lemma TargetArchive(tmp: string, b: Field, url: string)
    requires Basename(url) == TargetFileName
    ensures XzFile(tmp, b, url) == BedgraphFile(tmp, b) + ".xz"
  {
    var dir := BedgraphDir(tmp) + "/" + Interp(b);
    TargetNameSuffix();
    calc {
      XzFile(tmp, b, url);
      dir + "_" + TargetFileName;
      dir + ("_" + TargetFileName);
      dir + (BedgraphSuffix + ".xz");
      dir + BedgraphSuffix + ".xz";
      BedgraphFile(tmp, b) + ".xz";
    }
  }

  /** A successful download of the target archive leaves the sample's
      bedgraph in place, so a later run skips the sample. */
  lemma DownloadYieldsBedgraph(w: World, env: Env, b: Field, url: string)
    requires Basename(url) == TargetFileName
    requires url in env.remote.files
    ensures BedgraphFile(env.tmp, b) in Download(w, env, b, url).files
  {
    TargetArchive(env.tmp, b, url);
    var xz := XzFile(env.tmp, b, url);
    assert xz[|xz| - 3..] == ".xz" && xz[..|xz| - 3] == BedgraphFile(env.tmp, b);
  }

  // ---------------------------------------------------------------------
  // Failure entries (lines 193, 199)

  /** `failed` at `w` extends `failed` at `w0`, and every new entry is the
      download failure of biosample `b` or the self-reference of line 199. */
  ghost predicate FailuresOf(w0: World, w: World, b: Field)
  {
    && w0.failed <= w.failed
    && forall i | |w0.failed| <= i < |w.failed| :: w.failed[i] in {SelfRef, Msg(DownloadFailure(b))}
  }

  lemma FailuresOfTrans(w0: World, w1: World, w2: World, b: Field)
    requires FailuresOf(w0, w1, b) && FailuresOf(w1, w2, b)
    ensures FailuresOf(w0, w2, b)
  {
    forall i | |w0.failed| <= i < |w2.failed|
      ensures w2.failed[i] in {SelfRef, Msg(DownloadFailure(b))}
    {
      if i < |w1.failed| {
        assert w2.failed[i] == w1.failed[i];
      }
    }
  }

  lemma DownloadFailures(w: World, env: Env, b: Field, url: string)
    ensures FailuresOf(w, Download(w, env, b, url), b)
  {
    DownloadFailsIffMissing(w, env, b, url);
  }

  lemma ScanFileFailures(w: World, env: Env, b: Field, file: Json)
    ensures FailuresOf(w, ScanFile(w, env, b, file).w, b)
  {
    var r := ScanFile(w, env, b, file);
    if r.w != w {
      var url :| StringAt(file, UrlKeys) == Some(url) && r.w == Download(w, env, b, url);
      DownloadFailures(w, env, b, url);
    }
  }

  lemma {:induction false} ScanFilesFailures(w: World, env: Env, b: Field, items: seq<Json>)
    ensures FailuresOf(w, ScanFiles(w, env, b, items).w, b)
    decreases |items|
  {
    if |items| > 0 {
      var init := items[..|items| - 1];
      ScanFilesFailures(w, env, b, init);
      match ScanFiles(w, env, b, init)
      case Died(_) =>
      case Going(w') =>
        ScanFileFailures(w', env, b, items[|items| - 1]);
        FailuresOfTrans(w, w', ScanFile(w', env, b, items[|items| - 1]).w, b);
    }
  }

  lemma ScanBiosampleFailures(w: World, env: Env, b: Field, related: Json)
    ensures FailuresOf(w, ScanBiosample(w, env, b, related).w, b)
  {
    var ref := Navigate(related, ResultFilesKeys);
    if FoundRightRelatedBiosample(related, b) == Some(true) && ref.Some? {
      ScanResultFilesFailures(w, env, b, Render(ref.value, env.inspect));
    }
  }

  lemma ScanResultFilesFailures(w: World, env: Env, b: Field, name: string)
    ensures FailuresOf(w, ScanResultFiles(w, env, b, name).w, b)
  {
    var path := CachePath(env.tmp, name);
    var w1 := Fetched(w, path, RemoteDoc(env, DocKey("Result Files", name)));
    assert w1.failed == w.failed;
    ScanResultFilesDocFailures(w1, env, b, path);
  }

  lemma ScanResultFilesDocFailures(w: World, env: Env, b: Field, path: string)
    ensures FailuresOf(w, ScanResultFilesDoc(w, env, b, path).w, b)
  {
    if path in w.cache && CheckJsonStatus(w.cache[path]) == Some(true) {
      match Collection(w.cache[path], PipelineFilesKeys)
      case None =>
      case Some(items) =>
        ScanFilesFailures(w, env, b, items);
    }
  }

  lemma {:induction false} ScanBiosamplesFailures(w: World, env: Env, b: Field, items: seq<Json>)
    ensures FailuresOf(w, ScanBiosamples(w, env, b, items).w, b)
    decreases |items|
  {
    if |items| > 0 {
      var init := items[..|items| - 1];
      ScanBiosamplesFailures(w, env, b, init);
      match ScanBiosamples(w, env, b, init)
      case Died(_) =>
      case Going(w') =>
        ScanBiosampleFailures(w', env, b, items[|items| - 1]);
        FailuresOfTrans(w, w', ScanBiosample(w', env, b, items[|items| - 1]).w, b);
    }
  }

  lemma ScanJobFailures(w: World, env: Env, s: Sample, item: Json)
    ensures FailuresOf(w, ScanJob(w, env, s, item).out.w, s.biosample)
  {
    var job := StringAt(item, JobNameKeys);
    if job.Some? && !Contains(job.value, "PCR") {
      var path := CachePath(env.tmp, job.value);
      var w1 := Fetched(w, path, RemoteDoc(env, DocKey("Jobs", job.value)));
      assert ScanJob(w, env, s, item) == ScanJobDoc(w1, env, s, path);
      assert w1.failed == w.failed;
      ScanJobDocFailures(w1, env, s, path);
    }
  }

  lemma ScanJobDocFailures(w: World, env: Env, s: Sample, path: string)
    ensures FailuresOf(w, ScanJobDoc(w, env, s, path).out.w, s.biosample)
  {
    if path in w.cache && CheckJsonStatus(w.cache[path]) == Some(true)
      && FoundRightJson(w.cache[path], s.analysis) == Some(true)
    {
      match Collection(w.cache[path], BiosamplesKeys)
      case None =>
      case Some(items) =>
        ScanBiosamplesFailures(w, env, s.biosample, items);
    }
  }

  lemma {:induction false} ScanJobsFailures(w: World, env: Env, s: Sample, items: seq<Json>)
    ensures FailuresOf(w, ScanJobs(w, env, s, items).out.w, s.biosample)
    decreases |items|
  {
    if |items| > 0 {
      var init := items[..|items| - 1];
      ScanJobsFailures(w, env, s, init);
      match ScanJobs(w, env, s, init).out
      case Died(_) =>
      case Going(w') =>
        ScanJobFailures(w', env, s, items[|items| - 1]);
        FailuresOfTrans(w, w', ScanJob(w', env, s, items[|items| - 1]).out.w, s.biosample);
    }
  }

  /** Every entry one sample adds to `failed` is that sample's download
      failure or the self-reference of line 199. */
  lemma RunSampleFailures(w: World, env: Env, allJobs: Json, s: Sample)
    ensures FailuresOf(w, RunSample(w, env, allJobs, s).w, s.biosample)
  {
    if BedgraphFile(env.tmp, s.biosample) !in w.files {
      match JobItems(allJobs)
      case None =>
      case Some(items) =>
        ScanJobsFailures(w, env, s, items);
        var w' := ScanJobs(w, env, s, items).out.w;
        var w2 := w'.(failed := w'.failed + [SelfRef, Msg(DownloadFailure(s.biosample))]);
        assert FailuresOf(w', w2, s.biosample);
        FailuresOfTrans(w, w', w2, s.biosample);
    }
  }
}

=== FILE: samplefile.dfy ===
/** `readSampleFile` (exRnaDataSlicer.rb:83-91): the tab-separated sample file
    becomes a hash from biosample to analysis. */
module SampleFile {
  import opened Wrappers
  import opened RubyText

  /** One entry of the hash: `output[biosample] = analysis`. */
  datatype Sample = Sample(biosample: Field, analysis: Field)

  /** A Ruby Hash: entries in insertion order, one per key. */
  type SampleTable = seq<Sample>

  ghost predicate DistinctKeys(t: SampleTable)
  {
    forall i, j | 0 <= i < j < |t| :: t[i].biosample != t[j].biosample
  }

  /** `output[k]`, `nil` (here `None`) for a missing key. */
  function Lookup(t: SampleTable, k: Field): Option<Field>
    decreases |t|
  {
    if |t| == 0 then None
    else if t[0].biosample == k then Some(t[0].analysis)
    else Lookup(t[1..], k)
  }

  /** `output[k] = v`: a new key goes to the end, an existing key keeps its
      place and takes the new value. */
  function Put(t: SampleTable, k: Field, v: Field): (r: SampleTable)
    ensures forall k' :: Lookup(r, k') == if k' == k then Some(v) else Lookup(t, k')
    ensures Lookup(t, k).None? ==> r == t + [Sample(k, v)]
    ensures Lookup(t, k).Some? ==> |r| == |t| && forall i | 0 <= i < |t| :: r[i].biosample == t[i].biosample
    ensures DistinctKeys(t) ==> DistinctKeys(r)
    decreases |t|
  {
    if |t| == 0 then [Sample(k, v)]
    else if t[0].biosample == k then
      var r := [Sample(k, v)] + t[1..];
      assert forall k' | k' != k :: Lookup(r, k') == Lookup(r[1..], k') && r[1..] == t[1..];
      r
    else
      var rest := Put(t[1..], k, v);
      var r := [t[0]] + rest;
      assert r[1..] == rest;
      assert Lookup(t, k).None? ==> r == t + [Sample(k, v)];
      assert DistinctKeys(t) ==> DistinctKeys(r) by {
        if DistinctKeys(t) {
          assert DistinctKeys(t[1..]);
          assert Lookup(t[1..], t[0].biosample).None? by { LookupMissing(t[1..], t[0].biosample); }
          forall j | 0 < j < |r| ensures r[j].biosample != t[0].biosample {
            LookupFound(rest, j - 1);
          }
        }
      }
      r
  }

  /** A key that no entry carries is not found. */
  lemma {:induction false} LookupMissing(t: SampleTable, k: Field)
    requires forall i | 0 <= i < |t| :: t[i].biosample != k
    ensures Lookup(t, k).None?
    decreases |t|
  {
    if |t| > 0 {
      LookupMissing(t[1..], k);
    }
  }

  /** A key that some entry carries is found. */
  lemma {:induction false} LookupFound(t: SampleTable, i: int)
    requires 0 <= i < |t|
    ensures Lookup(t, t[i].biosample).Some?
    decreases |t|
  {
    if t[0].biosample != t[i].biosample {
      LookupFound(t[1..], i - 1);
    }
  }

  /** The header test of line 86: `/biosample|analysis/i`. */
  predicate IsHeader(line: string)
  {
    ContainsAnyCase(line, "biosample") || ContainsAnyCase(line, "analysis")
  }

  /** `line.chomp.split("\t")`. */
  function Fields(line: string): seq<string>
  {
    Split(Chomp(line), '\t')
  }

  /** `tmp[i]`: `nil` past the end. */
  function FieldAt(fields: seq<string>, i: nat): Field
  {
    if i < |fields| then Some(fields[i]) else None
  }

  /** The key a data line contributes: its second field. */
  function KeyOf(line: string): Field
  {
    FieldAt(Fields(line), 1)
  }

  /** The value a data line contributes: its first field. */
  function ValueOf(line: string): Field
  {
    FieldAt(Fields(line), 0)
  }

  /** One turn of the loop body of lines 86-88. */
  function Absorb(t: SampleTable, line: string): SampleTable
  {
    if IsHeader(line) then t else Put(t, KeyOf(line), ValueOf(line))
  }

  /** The hash after the loop has read `lines`, starting from `t`. */
  function AbsorbAll(t: SampleTable, lines: seq<string>): SampleTable
    decreases |lines|
  {
    if |lines| == 0 then t
    else Absorb(AbsorbAll(t, lines[..|lines| - 1]), lines[|lines| - 1])
  }

  /** The hash `readSampleFile` returns for a file with these lines. */
  function Tabulate(lines: seq<string>): SampleTable
  {
    AbsorbAll([], lines)
  }

  /** `readSampleFile(sampleFile)`, given the lines `File.foreach` yields. */
  method ReadSampleFile(lines: seq<string>) returns (samples: SampleTable)
    ensures samples == Tabulate(lines)
  {
    samples := [];
    var i := 0;
    while i < |lines|
      invariant 0 <= i <= |lines|
      invariant samples == Tabulate(lines[..i])
    {
      var line := lines[i];
      assert lines[..i + 1][..i] == lines[..i];
      if !(Find(line, "biosample", true) || Find(line, "analysis", true)) {
        var tmp := Split(Chomp(line), '\t');
        samples := Put(samples, FieldAt(tmp, 1), FieldAt(tmp, 0));
      }
      i := i + 1;
    }
    assert lines[..|lines|] == lines;
  }

  /** The hash has one entry per biosample. */
  lemma {:induction false} TabulateDistinct(lines: seq<string>)
    ensures DistinctKeys(Tabulate(lines))
    decreases |lines|
  {
    if |lines| > 0 {
      TabulateDistinct(lines[..|lines| - 1]);
    }
  }

  /** A data line whose biosample no later data line repeats decides that
      biosample's analysis: every data line maps its second field to its
      first, and the last one wins. */
  lemma {:induction false} TabulateFinds(lines: seq<string>, i: int)
    requires 0 <= i < |lines| && !IsHeader(lines[i])
    requires forall j | i < j < |lines| :: IsHeader(lines[j]) || KeyOf(lines[j]) != KeyOf(lines[i])
    ensures Lookup(Tabulate(lines), KeyOf(lines[i])) == Some(ValueOf(lines[i]))
    decreases |lines|
  {
    var n := |lines|;
    var init := lines[..n - 1];
    if i < n - 1 {
      assert forall j | i < j < |init| :: init[j] == lines[j];
      TabulateFinds(init, i);
    }
  }

  /** A biosample that no data line names is not in the hash. */
  lemma {:induction false} TabulateMisses(lines: seq<string>, k: Field)
    requires forall j | 0 <= j < |lines| :: IsHeader(lines[j]) || KeyOf(lines[j]) != k
    ensures Lookup(Tabulate(lines), k).None?
    decreases |lines|
  {
    if |lines| > 0 {
      var init := lines[..|lines| - 1];
      assert forall j | 0 <= j < |init| :: init[j] == lines[j];
      TabulateMisses(init, k);
    }
  }

  /** Reading `a + b` is reading `a`, then `b`. */
  lemma {:induction false} AbsorbAllAppend(t: SampleTable, a: seq<string>, b: seq<string>)
    ensures AbsorbAll(t, a + b) == AbsorbAll(AbsorbAll(t, a), b)
    decreases |b|
  {
    if |b| == 0 {
      assert a + b == a;
    } else {
      var ab := a + b;
      assert ab[..|ab| - 1] == a + b[..|b| - 1];
      assert ab[|ab| - 1] == b[|b| - 1];
      AbsorbAllAppend(t, a, b[..|b| - 1]);
    }
  }

  /** A line containing "biosample" or "analysis" in any case has no effect,
      wherever it stands in the file. */
  lemma HeaderIgnored(a: seq<string>, line: string, b: seq<string>)
    requires IsHeader(line)
    ensures Tabulate(a + [line] + b) == Tabulate(a + b)
  {
    AbsorbAllAppend([], a + [line], b);
    AbsorbAllAppend([], a, [line]);
    assert AbsorbAll(AbsorbAll([], a), [line]) == AbsorbAll([], a) by {
      assert [line][..0] == [];
    }
    AbsorbAllAppend([], a, b);
  }
}

=== FILE: slicer.dfy ===
/** The script's run state as an object: exRnaDataSlicer.rb:148-242 change it
    step by step, and each method here does the same and is proved to end in
    the state the functions of modules Resolution and Merging describe. */
module DataSlicer {
  import opened Wrappers
  import opened RubyText
  import opened JsonPath
  import opened Documents
  import opened SampleFile
  import opened Naming
  import opened Resolution
  import opened ResolutionFacts
  import opened Merging

  class Slicer {
    /** The tmp directory, the remote side and how containers are rendered. */
    const env: Env
    /** Cache files under tmp, by path. */
    var cache: map<string, Json>
    /** Files under tmp/bedgraphs. */
    var files: set<string>
    /** The `failed` list. */
    var failed: seq<Failure>
    /** Every document requested, in order. */
    var fetches: seq<string>
    /** Every file URL requested, in order. */
    var downloads: seq<string>
    /** Every run of dataSlicerHelper.sh, in order. */
    var runs: seq<HelperRun>

    function State(): World
      reads this
    {
      World(cache, files, failed, fetches, downloads)
    }

    /** The state as an outcome: dead once Ruby has raised. */
    function Now(died: bool): Outcome
      reads this
    {
      if died then Died(State()) else Going(State())
    }

    constructor(env: Env, start: World)
      ensures this.env == env && State() == start && runs == []
    {
      this.env := env;
      cache, files, failed := start.cache, start.files, start.failed;
      fetches, downloads := start.fetches, start.downloads;
      runs := [];
    }

    /** `curlAtlasApi(...) unless File.exist?(path)` (lines 170, 181) and
        `getAllJobsJson(...) unless File.exist?(path)` (line 149). */
    method Fetch(path: string, answer: Option<Json>)
      modifies this
      ensures State() == Fetched(old(State()), path, answer) && runs == old(runs)
    {
      if path !in cache {
        if answer.Some? {
          cache := cache[path := answer.value];
        }
        fetches := fetches + [path];
      }
    }

    /** `decompressBedgraphXZ` (lines 65-75): reports whether the archive
        exists, and decompresses it when it does. */
    method DecompressBedgraphXZ(xz: string) returns (present: bool)
      modifies this
      ensures present == (xz in old(files))
      ensures State() == old(State()).(files := if present then Decompressed(old(files), xz) else old(files))
      ensures runs == old(runs)
    {
      present := xz in files;
      if present {
        files := Decompressed(files, xz);
      }
    }

    /** Lines 187-194 for one target file. */
    method DownloadBedgraph(biosample: Field, url: string)
      modifies this
      ensures State() == Download(old(State()), env, biosample, url) && runs == old(runs)
    {
      var xz := XzFile(env.tmp, biosample, url);
      if url in env.remote.files {
        files := files + {xz};
      }
      downloads := downloads + [url];
      var present := DecompressBedgraphXZ(xz);
      if !present {
        failed := failed + [Msg(DownloadFailure(biosample))];
      }
    }

    /** The body of the loop of line 184. */
    method VisitFile(biosample: Field, file: Json) returns (died: bool)
      modifies this
      ensures Now(died) == ScanFile(old(State()), env, biosample, file) && runs == old(runs)
    {
      died := false;
      var name := Navigate(file, FileNameKeys);
      if name.None? {
        died := true;
      } else if name.value == JStr(TargetFileName) {
        var url := StringAt(file, UrlKeys);
        if url.None? {
          died := true;
        } else {
          DownloadBedgraph(biosample, url.value);
        }
      }
    }

    /** The loop of line 184. */
    method VisitFiles(biosample: Field, items: seq<Json>) returns (died: bool)
      modifies this
      ensures Now(died) == ScanFiles(old(State()), env, biosample, items) && runs == old(runs)
    {
      ghost var w0 := State();
      died := false;
      var i := 0;
      while i < |items| && !died
        invariant 0 <= i <= |items|
        invariant Now(died) == ScanFiles(w0, env, biosample, items[..i])
        invariant runs == old(runs)
      {
        ScanFilesNext(w0, env, biosample, items, i);
        died := VisitFile(biosample, items[i]);
        i := i + 1;
      }
      if died {
        ScanFilesStopped(w0, env, biosample, items, i);
      } else {
        assert items[..i] == items;
      }
    }

    /** The body of the loop of line 176. */
    method VisitBiosample(biosample: Field, related: Json) returns (died: bool)
      modifies this
      ensures Now(died) == ScanBiosample(old(State()), env, biosample, related) && runs == old(runs)
    {
      died := false;
      var right := FoundRightRelatedBiosample(related, biosample);
      if right.None? {
        died := true;
        return;
      }
      if !right.value {
        return;
      }
      var ref := Navigate(related, ResultFilesKeys);
      if ref.None? {
        died := true;
        return;
      }
      var name := Render(ref.value, env.inspect);
      var path := CachePath(env.tmp, name);
      Fetch(path, RemoteDoc(env, DocKey("Result Files", name)));
      died := ReadResultFiles(biosample, path);
    }

    /** Lines 182-195, once the Result Files document has been requested. */
    method ReadResultFiles(biosample: Field, path: string) returns (died: bool)
      modifies this
      ensures Now(died) == ScanResultFilesDoc(old(State()), env, biosample, path) && runs == old(runs)
    {
      died := false;
      if path !in cache {
        died := true;   // File.read raises
        return;
      }
      var doc := cache[path];
      var ok := CheckJsonStatus(doc);
      if ok.None? {
        died := true;
        return;
      }
      if !ok.value {
        return;
      }
      var items := Collection(doc, PipelineFilesKeys);
      if items.None? {
        died := true;
        return;
      }
      died := VisitFiles(biosample, items.value);
    }

    /** The loop of line 176. */
    method VisitBiosamples(biosample: Field, items: seq<Json>) returns (died: bool)
      modifies this
      ensures Now(died) == ScanBiosamples(old(State()), env, biosample, items) && runs == old(runs)
    {
      ghost var w0 := State();
      died := false;
      var i := 0;
      while i < |items| && !died
        invariant 0 <= i <= |items|
        invariant Now(died) == ScanBiosamples(w0, env, biosample, items[..i])
        invariant runs == old(runs)
      {
        ScanBiosamplesNext(w0, env, biosample, items, i);
        died := VisitBiosample(biosample, items[i]);
        i := i + 1;
      }
      if died {
        ScanBiosamplesStopped(w0, env, biosample, items, i);
      } else {
        assert items[..i] == items;
      }
    }

    /** The body of the loop of line 166; `found` is whether it sets `jobFound`. */
    method VisitJob(s: Sample, item: Json) returns (died: bool, found: bool)
      modifies this
      ensures JobsScan(Now(died), found) == ScanJob(old(State()), env, s, item) && runs == old(runs)
    {
      died, found := false, false;
      var name := StringAt(item, JobNameKeys);
      if name.None? {
        died := true;
        return;
      }
      if Contains(name.value, "PCR") {
        return;
      }
      var path := CachePath(env.tmp, name.value);
      Fetch(path, RemoteDoc(env, DocKey("Jobs", name.value)));
      if path !in cache {
        died := true;   // File.read raises
        return;
      }
      var doc := cache[path];
      var ok := CheckJsonStatus(doc);
      if ok.None? {
        died := true;
        return;
      }
      if !ok.value {
        return;
      }
      var right := FoundRightJson(doc, s.analysis);
      if right.None? {
        died := true;
        return;
      }
      if !right.value {
        return;
      }
      found := true;
      var items := Collection(doc, BiosamplesKeys);
      if items.None? {
        died := true;
        return;
      }
      died := VisitBiosamples(s.biosample, items.value);
    }

    /** One turn of the loop of line 166, on a run that has not raised. */
    method VisitNextJob(ghost w0: World, s: Sample, items: seq<Json>, i: nat, jobFound: bool)
      returns (died: bool, found: bool)
      requires i < |items| && JobsScan(Going(State()), jobFound) == ScanJobs(w0, env, s, items[..i])
      modifies this
      ensures JobsScan(Now(died), found) == ScanJobs(w0, env, s, items[..i + 1]) && runs == old(runs)
    {
      ScanJobsNext(w0, env, s, items, i);
      var d, f := VisitJob(s, items[i]);
      died, found := d, jobFound || f;
    }

    /** The loop of line 166 from `jobFound = FALSE`. */
    method VisitJobs(s: Sample, items: seq<Json>) returns (died: bool, jobFound: bool)
      modifies this
      ensures JobsScan(Now(died), jobFound) == ScanJobs(old(State()), env, s, items) && runs == old(runs)
    {
      ghost var w0 := State();
      died, jobFound := false, false;
      var i := 0;
      while i < |items| && !died
        invariant 0 <= i <= |items|
        invariant JobsScan(Now(died), jobFound) == ScanJobs(w0, env, s, items[..i])
        invariant runs == old(runs)
      {
        died, jobFound := VisitNextJob(w0, s, items, i, jobFound);
        i := i + 1;
      }
      if died {
        ScanJobsStopped(w0, env, s, items, i);
      } else {
        assert items[..i] == items;
      }
    }

    /** One sample (lines 158-204). */
    method ProcessSample(allJobs: Json, s: Sample) returns (died: bool)
      modifies this
      ensures Now(died) == RunSample(old(State()), env, allJobs, s) && runs == old(runs)
    {
      died := false;
      if BedgraphFile(env.tmp, s.biosample) in files {
        return;
      }
      var jobs := JobItems(allJobs);
      if jobs.None? {
        died := true;
        return;
      }
      var jobFound;
      died, jobFound := VisitJobs(s, jobs.value);
      if !died && !jobFound {
        failed := failed + [SelfRef, Msg(DownloadFailure(s.biosample))];
      }
    }

    /** The loop of line 157. */
    method ProcessSamples(allJobs: Json, samples: SampleTable) returns (died: bool)
      modifies this
      ensures Now(died) == RunSamples(old(State()), env, allJobs, samples) && runs == old(runs)
    {
      ghost var w0 := State();
      died := false;
      var i := 0;
      while i < |samples| && !died
        invariant 0 <= i <= |samples|
        invariant Now(died) == RunSamples(w0, env, allJobs, samples[..i])
        invariant runs == old(runs)
      {
        RunSamplesNext(w0, env, allJobs, samples, i);
        died := ProcessSample(allJobs, samples[i]);
        i := i + 1;
      }
      if died {
        RunSamplesStopped(w0, env, allJobs, samples, i);
      } else {
        assert samples[..i] == samples;
      }
    }

    /** Lines 148-152: `jobs` is the index when the run goes on; `died` when
        Ruby raised; neither when the script exits with status 1. */
    method LoadJobs() returns (jobs: Option<Json>, died: bool)
      modifies this
      ensures var r := LoadJobsIndex(old(State()), env);
        && State() == r.w
        && died == r.LoadDied?
        && jobs == (if r.Loaded? then Some(r.jobs) else None)
      ensures runs == old(runs)
    {
      var path := JobsIndexPath(env.tmp);
      Fetch(path, env.remote.jobsIndex);
      jobs, died := None, false;
      if path !in cache {
        died := true;
        return;
      }
      var all := cache[path];
      var ok := CheckJsonStatus(all);
      if ok.None? {
        died := true;
      } else if ok.value {
        jobs := Some(all);
      }
    }

    /** The loop of lines 221-227 over the listed bedgraphs, with the exit
        status of each helper run given by `exit`. */
    method IntersectBedgraphs(listing: seq<string>, sortedBed: string, exit: string -> Option<int>)
      modifies this
      ensures runs == old(runs) + IntersectRuns(env.tmp, sortedBed, listing)
      ensures State() == old(State()).(failed := old(failed) + IntersectFailures(sortedBed, listing, exit))
    {
      var i := 0;
      while i < |listing|
        invariant 0 <= i <= |listing|
        invariant runs == old(runs) + IntersectRuns(env.tmp, sortedBed, listing[..i])
        invariant failed == old(failed) + IntersectFailures(sortedBed, listing[..i], exit)
        invariant cache == old(cache) && files == old(files) && fetches == old(fetches) && downloads == old(downloads)
      {
        var bedgraph := listing[i];
        IntersectRunsNext(env.tmp, sortedBed, listing, i);
        IntersectFailuresNext(sortedBed, listing, exit, i);
        runs := runs + [Intersect(sortedBed, bedgraph, IntersectionFile(env.tmp, bedgraph))];
        if IsFailureStatus(exit(bedgraph)) {
          failed := failed + [Msg(IntersectFailure(bedgraph, sortedBed))];
        }
        i := i + 1;
      }
      assert listing[..i] == listing;
    }

    /** Lines 230-242 over the listed intersection files, with the merge
        run's exit status. */
    method MergeIntersections(listing: seq<string>, outFile: string, status: Option<int>)
      returns (names: seq<Field>, paths: seq<string>)
      modifies this
      ensures paths == listing && names == SampleNames(listing)
      ensures runs == old(runs) + [MergeRun(listing, outFile)]
      ensures State() == old(State()).(failed := old(failed) + if IsFailureStatus(status) then [Msg(MergeFailure)] else [])
    {
      paths, names := [], [];
      var i := 0;
      while i < |listing|
        invariant 0 <= i <= |listing|
        invariant paths == listing[..i] && names == SampleNames(listing[..i])
        invariant runs == old(runs) && State() == old(State())
      {
        SampleNamesNext(listing, i);
        paths := paths + [listing[i]];
        names := names + [SampleName(listing[i])];
        i := i + 1;
      }
      assert listing[..i] == listing;
      runs := runs + [Merge(Join(Interps(names), ' '), Join(paths, ' '), outFile)];
      if IsFailureStatus(status) {
        failed := failed + [Msg(MergeFailure)];
      }
    }
  }
}

=== FILE: text.dfy ===
/** The handful of Ruby `String` operations the script relies on, written out
    for `seq<char>`: `split` with a one-character separator, `to_i`, the three
    fixed regular-expression tests, `chomp` and `File.basename`. */
module RubyText {
  import opened Wrappers

  /** A field read from the sample file: a string, or `nil` when the line has
      too few tab-separated fields. */
  type Field = Option<string>

  /** `"#{f}"`: string interpolation, where `nil` renders as "". */
  function Interp(f: Field): string
  {
    match f
    case Some(s) => s
    case None => ""
  }

  // ---------------------------------------------------------------------------
  // split
  // ---------------------------------------------------------------------------

  /** The fields of `s` between occurrences of `sep`, before Ruby drops the
      trailing empty ones: always at least one field. */
  function Pieces(s: string, sep: char): (r: seq<string>)
    ensures |r| >= 1
    decreases |s|
  {
    if |s| == 0 then [""]
    else
      var rest := Pieces(s[1..], sep);
      if s[0] == sep then [""] + rest
      else [[s[0]] + rest[0]] + rest[1..]
  }

  /** Ruby's `split` with no limit removes every trailing empty field. */
  function DropTrailingEmpty(r: seq<string>): (t: seq<string>)
    ensures |t| <= |r| && t == r[..|t|]
    ensures t == [] || t[|t| - 1] != ""
    ensures forall i | |t| <= i < |r| :: r[i] == ""
    decreases |r|
  {
    if |r| > 0 && r[|r| - 1] == "" then DropTrailingEmpty(r[..|r| - 1]) else r
  }

  /** `s.split(sep)` for a separator that is one character other than a space
      (Ruby's `split(' ')` splits on runs of white space instead; this function
      is the literal split on one character). */
  function Split(s: string, sep: char): seq<string>
  {
    DropTrailingEmpty(Pieces(s, sep))
  }

  /** `keys.join(sep)`. */
  function Join(keys: seq<string>, sep: char): string
    decreases |keys|
  {
    if |keys| == 0 then ""
    else if |keys| == 1 then keys[0]
    else keys[0] + [sep] + Join(keys[1..], sep)
  }

  lemma {:induction false} PiecesOfFieldThen(k: string, rest: string, sep: char)
    requires sep !in k
    ensures Pieces(k + rest, sep) == [k + Pieces(rest, sep)[0]] + Pieces(rest, sep)[1..]
    decreases |k|
  {
    if |k| > 0 {
      assert (k + rest)[1..] == k[1..] + rest;
      PiecesOfFieldThen(k[1..], rest, sep);
      assert [k[0]] + (k[1..] + Pieces(rest, sep)[0]) == k + Pieces(rest, sep)[0];
    } else {
      var p := Pieces(rest, sep);
      assert k + rest == rest;
      assert k + p[0] == p[0];
      assert p == [p[0]] + p[1..];
    }
  }

  lemma {:induction false} PiecesOfJoin(keys: seq<string>, sep: char)
    requires |keys| >= 1
    requires forall i | 0 <= i < |keys| :: sep !in keys[i]
    ensures Pieces(Join(keys, sep), sep) == keys
    decreases |keys|
  {
    if |keys| == 1 {
      PiecesOfFieldThen(keys[0], "", sep);
      assert keys[0] + "" == keys[0];
    } else {
      var tail := Join(keys[1..], sep);
      PiecesOfJoin(keys[1..], sep);
      assert keys[0] + [sep] + tail == keys[0] + ([sep] + tail);
      PiecesOfFieldThen(keys[0], [sep] + tail, sep);
      assert ([sep] + tail)[1..] == tail;
      assert Pieces([sep] + tail, sep) == [""] + keys[1..];
      assert keys[0] + "" == keys[0];
    }
  }

  /** Splitting a joined key sequence gives the keys back, provided no key holds
      the separator and the last key is not empty (Ruby would drop it). */
  lemma SplitJoin(keys: seq<string>, sep: char)
    requires forall i | 0 <= i < |keys| :: sep !in keys[i]
    requires keys == [] || keys[|keys| - 1] != ""
    ensures Split(Join(keys, sep), sep) == keys
  {
    if keys == [] {
      assert Pieces("", sep) == [""];
    } else {
      PiecesOfJoin(keys, sep);
    }
  }

  // ---------------------------------------------------------------------------
  // to_i
  // ---------------------------------------------------------------------------

  /** The characters Ruby's `String#to_i` skips before the number. */
  predicate IsSpace(c: char)
  {
    c == ' ' || c == '\t' || c == '\n' || c == '\U{0B}' || c == '\U{0C}' || c == '\r'
  }

  predicate IsDigit(c: char)
  {
    '0' <= c <= '9'
  }

  predicate AllDigits(s: string)
  {
    forall i | 0 <= i < |s| :: IsDigit(s[i])
  }

  function SkipSpace(s: string): (t: string)
    ensures t == [] || !IsSpace(t[0])
    ensures |t| <= |s| && t == s[|s| - |t|..]
    decreases |s|
  {
    if |s| > 0 && IsSpace(s[0]) then SkipSpace(s[1..]) else s
  }

  /** The longest prefix of `s` made of decimal digits. */
  function LeadingDigits(s: string): (d: string)
    ensures |d| <= |s| && d == s[..|d|] && AllDigits(d)
    ensures |d| == |s| || !IsDigit(s[|d|])
    decreases |s|
  {
    if |s| > 0 && IsDigit(s[0]) then [s[0]] + LeadingDigits(s[1..]) else ""
  }

  /** The value of a string of decimal digits, most significant first. */
  function DecimalValue(d: string): nat
    requires AllDigits(d)
    decreases |d|
  {
    if |d| == 0 then 0
    else 10 * DecimalValue(d[..|d| - 1]) + (d[|d| - 1] as int - '0' as int)
  }

  /** `String#to_i`: optional leading white space, an optional sign and the
      decimal digits that follow; text that does not start a number gives 0. */
  function ToI(s: string): (n: int)
    ensures AllDigits(s) ==> n == DecimalValue(s)
    ensures |s| > 0 && IsDigit(s[0]) ==> n == DecimalValue(LeadingDigits(s))
    ensures |s| > 0 && s[0] == '-' ==> n == -(DecimalValue(LeadingDigits(s[1..])) as int)
    ensures |s| > 0 && s[0] == '+' ==> n == DecimalValue(LeadingDigits(s[1..]))
    ensures |s| == 0 || (!IsSpace(s[0]) && !IsDigit(s[0]) && s[0] != '-' && s[0] != '+') ==> n == 0
  {
    var t := SkipSpace(s);
    var n: int :=
      if |t| > 0 && t[0] == '-' then -(DecimalValue(LeadingDigits(t[1..])) as int)
      else if |t| > 0 && t[0] == '+' then DecimalValue(LeadingDigits(t[1..]))
      else DecimalValue(LeadingDigits(t));
    assert AllDigits(s) ==> t == s && LeadingDigits(t) == s;
    n
  }

  /** `to_i` skips leading white space: " 7" reads as "7". */
  lemma ToISkipsSpace(s: string)
    requires |s| > 0 && IsSpace(s[0])
    ensures ToI(s) == ToI(s[1..])
  {
  }

  /** A minus sign negates the digits after it: "-1" is -1, the index of the
      last element of an array. */
  lemma ToIMinusOne()
    ensures ToI("-1") == -1
  {
    assert LeadingDigits("1") == "1";
  }

  // ---------------------------------------------------------------------------
  // Unanchored substring tests (the script's three regular expressions)
  // ---------------------------------------------------------------------------

  /** ASCII case folding. Ruby's `/.../i` folds by Unicode rules, under which a
      few non-ASCII characters (the Kelvin sign, the long s) also match ASCII
      letters; those are not folded here. */
  function Fold(c: char): char
  {
    if 'A' <= c <= 'Z' then (c as int + 32) as char else c
  }

  predicate SameChar(a: char, b: char, ignoreCase: bool)
  {
    if ignoreCase then Fold(a) == Fold(b) else a == b
  }

  /** `pat` occurs in `s` at position `i`. */
  ghost predicate OccursAt(s: string, pat: string, i: int, ignoreCase: bool)
  {
    0 <= i && i + |pat| <= |s| &&
    forall j | 0 <= j < |pat| :: SameChar(s[i + j], pat[j], ignoreCase)
  }

  predicate StartsWith(s: string, pat: string, ignoreCase: bool)
  {
    |pat| <= |s| && forall j | 0 <= j < |pat| :: SameChar(s[j], pat[j], ignoreCase)
  }

  /** The regular expression `/pat/` (or `/pat/i`) matches somewhere in `s`:
      the scan a regex engine does for a literal pattern. */
  function Find(s: string, pat: string, ignoreCase: bool): (found: bool)
    ensures found <==> exists i :: OccursAt(s, pat, i, ignoreCase)
    decreases |s|
  {
    if StartsWith(s, pat, ignoreCase) then
      assert OccursAt(s, pat, 0, ignoreCase);
      true
    else if |s| == 0 then
      assert forall i :: !OccursAt(s, pat, i, ignoreCase);
      false
    else
      var rest := Find(s[1..], pat, ignoreCase);
      FindStep(s, pat, ignoreCase);
      rest
  }

  lemma OccursShift(s: string, pat: string, i: int, ignoreCase: bool)
    requires |s| > 0 && i >= 0
    ensures OccursAt(s[1..], pat, i, ignoreCase) <==> OccursAt(s, pat, i + 1, ignoreCase)
  {
    if OccursAt(s[1..], pat, i, ignoreCase) {
      forall j | 0 <= j < |pat| ensures SameChar(s[(i + 1) + j], pat[j], ignoreCase) {
        assert s[1..][i + j] == s[(i + 1) + j];
      }
    }
    if OccursAt(s, pat, i + 1, ignoreCase) {
      forall j | 0 <= j < |pat| ensures SameChar(s[1..][i + j], pat[j], ignoreCase) {
        assert s[1..][i + j] == s[(i + 1) + j];
      }
    }
  }

  lemma FindStep(s: string, pat: string, ignoreCase: bool)
    requires |s| > 0 && !StartsWith(s, pat, ignoreCase)
    ensures (exists i :: OccursAt(s, pat, i, ignoreCase)) <==> (exists i :: OccursAt(s[1..], pat, i, ignoreCase))
  {
    if i :| OccursAt(s, pat, i, ignoreCase) {
      assert i != 0;
      OccursShift(s, pat, i - 1, ignoreCase);
    }
    if i :| OccursAt(s[1..], pat, i, ignoreCase) {
      OccursShift(s, pat, i, ignoreCase);
    }
  }

  /** `s.match(/PCR/)` and friends. */
  predicate Contains(s: string, pat: string)
  {
    Find(s, pat, false)
  }

  /** `s.match(/pat/i)` for a lower-case ASCII `pat`. */
  predicate ContainsAnyCase(s: string, pat: string)
  {
    Find(s, pat, true)
  }

  // ---------------------------------------------------------------------------
  // chomp and basename
  // ---------------------------------------------------------------------------

  /** `String#chomp` with no argument: removes one trailing "\r\n", "\n" or "\r". */
  function Chomp(s: string): (t: string)
    ensures |s| - 2 <= |t| <= |s| && t == s[..|t|]
    ensures |s| >= 2 && s[|s| - 2..] == "\r\n" ==> t == s[..|s| - 2]
    ensures |s| >= 1 && (s[|s| - 1] == '\n' || s[|s| - 1] == '\r') && !(|s| >= 2 && s[|s| - 2..] == "\r\n")
      ==> t == s[..|s| - 1]
    ensures |s| == 0 || (s[|s| - 1] != '\n' && s[|s| - 1] != '\r') ==> t == s
  {
    var n := |s|;
    if n >= 2 && s[n - 2] == '\r' && s[n - 1] == '\n' then s[..n - 2]
    else if n >= 1 && (s[n - 1] == '\n' || s[n - 1] == '\r') then s[..n - 1]
    else s
  }

  /** The part of a path or URL after its last '/'. */
  function Basename(s: string): string
    decreases |s|
  {
    if |s| == 0 then ""
    else if s[|s| - 1] == '/' then ""
    else Basename(s[..|s| - 1]) + [s[|s| - 1]]
  }

  /** The basename is the longest suffix without '/': it holds no '/', and
      it is the whole string or follows a '/'. */
  lemma {:induction false} BasenameIsLastSegment(s: string)
    ensures var b := Basename(s);
      && |b| <= |s| && b == s[|s| - |b|..]
      && '/' !in b
      && (|b| == |s| || s[|s| - |b| - 1] == '/')
    decreases |s|
  {
    if |s| > 0 && s[|s| - 1] != '/' {
      var init := s[..|s| - 1];
      BasenameIsLastSegment(init);
      var b := Basename(init);
      assert s[|s| - |b| - 1..] == init[|init| - |b|..] + [s[|s| - 1]];
      if |b| < |init| {
        assert s[|s| - |b| - 2] == init[|init| - |b| - 1];
      }
    }
  }

  /** The basename of `dir + "/" + name` is `name` when `name` has no '/'. */
  lemma {:induction false} BasenameOfChild(dir: string, name: string)
    requires '/' !in name
    ensures Basename(dir + "/" + name) == name
    decreases |name|
  {
    var s := dir + "/" + name;
    if |name| == 0 {
      assert s[|s| - 1] == '/';
    } else {
      var init := name[..|name| - 1];
      assert '/' !in init by {
        forall i | 0 <= i < |init| ensures init[i] != '/' { assert init[i] == name[i]; }
      }
      assert s[..|s| - 1] == dir + "/" + init;
      BasenameOfChild(dir, init);
      assert init + [name[|name| - 1]] == name;
    }
  }
}

=== FILE: wrappers.dfy ===
/** The optional value used throughout the model: `None` stands for Ruby's `nil`
    or for a lookup that raised. */
module Wrappers {
  datatype Option<+T> = None | Some(value: T)
}
